=== FILE: README.md ===
# Mavhod Blender add-on: export job, FePBR material rewrite and grid arrangement

This project models three pieces of logic from the Mavhod Blender add-on in Dafny and proves properties of them. In each piece, the calls into Blender are replaced by plain inputs.

1. **The export job** (`MavhodExportExecute` in `export_scene.py`). `invoke` starts a job over the selected meshes. Each `modal` TIMER tick processes one object:
   - it classifies the object as linked or local and derives its source folder;
   - it picks the root, the glTF path and the manifest `asset_path`;
   - it exports each mesh datablock at most once;
   - it collects the object's images once each and patches the exported glTF `images` array so that it points at shared texture copies.

   `_finish` restores the selection and writes `selected_meshes.json`. The job is a `Job` record with a pure `Tick` transition. The disk is a map from path to contents. `bpy.path.abspath`, `os.path.relpath`, the glTF exporter and the success of the manifest write are fields of a `Host` record.
2. **The Principled→FePBR material rewrite** (`replace_with_fepbr` in `import_gltf.py`). It chooses the nodes, then replaces the Principled BSDF with a group node using the template's FePBR tree. It rewires six inputs, with a one-hop NORMAL_MAP bypass, forwards glTF occlusion into `AO`, links the group's shader output to `Surface` and removes the Principled node. A node graph is an iteration order, a map from node id to node, and a map from each linked input socket to the output socket feeding it. Also modelled: the file-name filter and the material-copy loop of `execute`, including how an exception ends the work on one file. The loop reads and writes `obj.data.materials`, which belong to the mesh datablock. Imported objects therefore refer to meshes by id, and the slots live in one map threaded through the loop. A mesh instanced by several new objects is converted once per object, so its slots end up with one `_FePBR` suffix per object.
3. **The grid arrangement** (`ArrangeSelectedMeshes` in `arrange_meshes.py`). Meshes are sorted by footprint with a stable sort, largest first. The column count is fixed, and the meshes are placed row by row in a fold over their sizes, which are `real` numbers.

Files, one module each:
- `base.dfy`: `Option` and `Vec3`.
- `strings.dfy`: lower-casing, suffixes and character replacement.
- `paths.dfy`: POSIX `os.path.join`, `basename` and `dirname`.
- `shading.dfy`: the node graph.
- `fepbr.dfy`: the material rewrite.
- `gltf_import.dfy`: the import loop.
- `grid.dfy`: the arrangement.
- `files.dfy`: glTF documents, manifest records and the disk.
- `export_images.dfy`: image collection and the glTF patch.
- `export_job.dfy`: the job.

## Model

| member | source | states |
|---|---|---|
| FePBR.Replace | mavhod_blender_addon/import_gltf.py:20-114 | The rewrite does nothing exactly when one of three things holds: the material does not use nodes, it has no Principled BSDF, or the template has no FePBR group. It then names which check stopped it. It raises exactly when there is a Principled node but no template. |
| FePBR.ReplaceChoosesNodes | mavhod_blender_addon/import_gltf.py:29-59 | A rewrite happens only with a template holding a FePBR group. It replaces the last Principled node, links into the first material output and forwards the last glTF output group. The output node is never the Principled node. |
| FePBR.FePBRTreeOf | mavhod_blender_addon/import_gltf.py:46-51 | The tree used is that of the first group node in the template's iteration order whose tree name contains "FePBR"; no such group comes before it. |
| FePBR.PrincipledChosen | mavhod_blender_addon/import_gltf.py:33-35 | The replaced node is a Principled BSDF of the graph, and no Principled node comes after it in iteration order. |
| FePBR.MaterialOutputChosen | mavhod_blender_addon/import_gltf.py:36-38 | The material output used exists exactly when the graph has one. It is an OUTPUT_MATERIAL node, and none comes before it. |
| FePBR.GltfOutputChosen | mavhod_blender_addon/import_gltf.py:39-40 | The glTF output used exists exactly when some group's tree name contains "glTF Material Output". It is the last such group. |
| FePBR.Upstream | mavhod_blender_addon/import_gltf.py:80-88 | A non-Normal input keeps its Principled source. A Normal input fed by a NORMAL_MAP node whose Color input is linked takes that Color link's source instead, one hop only, and any changed source is exactly that link. The result is an existing output whenever the original one is and the links are well formed. |
| FePBR.LinkEntriesEffect | mavhod_blender_addon/import_gltf.py:75-91 | Linking the input-map entries in turn gives each applicable entry one link into the group. The link comes from the original graph's upstream socket, with the NORMAL_MAP Color bypass applied. Entries whose sockets are missing or unlinked add nothing, and no link into another node changes. |
| FePBR.FirstShader | mavhod_blender_addon/import_gltf.py:104-108 | Either the group's first SHADER-typed output is found, or no output has that type. |
| FePBR.OcclusionOnLinked | mavhod_blender_addon/import_gltf.py:94-99 | The group's `AO` input is linked exactly when the glTF output's Occlusion input exists and is linked and the group has `AO`. The link comes from Occlusion's source. |
| FePBR.SurfaceOnLinked | mavhod_blender_addon/import_gltf.py:102-111 | When the material output has `Surface` and the group has a shader output, that output feeds `Surface`. Every other link is as before. |
| FePBR.RemovalOnLinked | mavhod_blender_addon/import_gltf.py:114 | Removing the Principled node drops every link touching it and keeps all the others. |
| FePBR.RemoveNode | mavhod_blender_addon/import_gltf.py:114 | `nodes.remove`: the node leaves the map and the iteration order, every other node is unchanged, and a link survives exactly when neither of its ends is the removed node, with its source unchanged. |
| FePBR.RemoveNodeWellFormed | mavhod_blender_addon/import_gltf.py:114 | Removing a node from a graph whose links run between existing sockets leaves such a graph. |
| FePBR.RewireLinks | mavhod_blender_addon/import_gltf.py:63-114 | The rewritten links, against the original graph: one link per applicable input-map entry whose source survives, the occlusion forward, the shader output into `Surface`, and every other link kept unless it touched the Principled node. No link into the group comes from anywhere else. |
| FePBR.RewireShape | mavhod_blender_addon/import_gltf.py:57-61 | The Principled node is gone. Exactly one new group node using the FePBR tree takes its place: last in iteration order, at its location, width 300. The node count is unchanged and the graph stays well formed. |
| FePBR.RewireWithNodes | mavhod_blender_addon/import_gltf.py:57-61 | `RewireWith` for any input map: the order loses the Principled node and gains the group at its end, and the node map is the original one without the Principled node plus the new group. |
| FePBR.RewireWithValid | mavhod_blender_addon/import_gltf.py:58-114 | A rewrite of a well-formed graph is well formed: each node listed once, and every link running from an existing output to an existing input. |
| GltfImport.GltfNames | mavhod_blender_addon/import_gltf.py:139-140 | A chosen name is kept exactly when, lower-cased, it ends in `.gltf` or `.glb`. A single name is kept alone or dropped. |
| GltfImport.GltfNamesAppend | mavhod_blender_addon/import_gltf.py:138-142 | Filtering a concatenation filters each part and concatenates. With the single-name case this pins the result to the kept names in their chosen order, repeats included. |
| GltfImport.ValidFilesExactly | mavhod_blender_addon/import_gltf.py:138-142 | A path is imported exactly when it joins the directory with a kept name. |
| GltfImport.SlotRaisesIsRaise | mavhod_blender_addon/import_gltf.py:176-180 | A filled slot raises exactly when the rewrite of its renamed copy raises. |
| GltfImport.FirstRaising | mavhod_blender_addon/import_gltf.py:171-180 | The loop stops at the first slot whose rewrite raises. No slot before it raises. |
| GltfImport.ConvertSlots | mavhod_blender_addon/import_gltf.py:171-183 | Every filled slot before the raising one holds its rewritten `_FePBR` copy. The raising slot and all later ones are left as they were. |
| GltfImport.ConvertSlotsRaises | mavhod_blender_addon/import_gltf.py:171-180 | The slot loop raises exactly when some filled slot needs the missing template. |
| GltfImport.TemplateConvertsAll | mavhod_blender_addon/import_gltf.py:148-183 | With a template loaded, nothing raises and every slot is converted. |
| GltfImport.ConvertedNames | mavhod_blender_addon/import_gltf.py:176-177 | Every converted slot holds a material named `<original>_FePBR`. |
| GltfImport.ConvertObjects | mavhod_blender_addon/import_gltf.py:168-183 | The object loop keeps the set of imported meshes and every mesh's slot count. A mesh no object uses keeps its slots, and with a template the loop never raises. |
| GltfImport.ConvertObjectsEffect | mavhod_blender_addon/import_gltf.py:168-183 | Without a raise, each mesh's slots are the result of running the slot loop on them once per mesh object that uses the mesh. |
| GltfImport.ConvertObjectsRaises | mavhod_blender_addon/import_gltf.py:168-183 | The loop raises exactly when some mesh object's mesh, as imported, has a filled slot needing the missing template. |
| GltfImport.ReconvertNames | mavhod_blender_addon/import_gltf.py:171-183 | With a template, n runs of the slot loop keep which slots are filled and name every filled slot `<original>` followed by n `_FePBR` suffixes. |
| GltfImport.SharedMeshConvertedTwice | mavhod_blender_addon/import_gltf.py:168-183 | Two objects that share one mesh leave a slot first named `X` named `X_FePBR_FePBR`. |
| GltfImport.ImportFile | mavhod_blender_addon/import_gltf.py:156-189 | A file the importer rejects fails with nothing converted. Otherwise the imported meshes are kept. With a template the file counts as imported, and each mesh has been through the slot loop once per object using it. |
| GltfImport.ImportedMeansConverted | mavhod_blender_addon/import_gltf.py:156-189 | A file counts as imported exactly when the importer read it and no filled slot of any new mesh needs the missing template. |
| GltfImport.CountImported | mavhod_blender_addon/import_gltf.py:185 | The count is at most the number of files. It equals it exactly when every file was imported. |
| GltfImport.Execute | mavhod_blender_addon/import_gltf.py:132-194 | Every kept file gets one outcome, in order; a failure does not stop the loop. The reported count is the number imported, at most the number of kept files. |
| GltfImport.ImportAll | mavhod_blender_addon/import_gltf.py:155-189 | One outcome per file, in file order, each the result of importing that file alone, so a failure does not stop the loop. |
| GltfImport.TemplateCountsAccepted | mavhod_blender_addon/import_gltf.py:148-189 | With a template loaded, the imported count equals the number of files the importer reads. |
| Grid.Spread | mavhod_blender_addon/arrange_meshes.py:35-42 | `max - min` is non-negative. It bounds every difference of two values and is one such difference. |
| Grid.BoundsSize | mavhod_blender_addon/arrange_meshes.py:28-43 | A mesh's size is its corners' extent on each axis. It is non-negative and bounds every difference of two corners; the x and y extents are attained. Other objects measure (0, 0, 0). |
| Grid.Area | mavhod_blender_addon/arrange_meshes.py:60 | The footprint of a non-negative size is non-negative. |
| Grid.SortByArea | mavhod_blender_addon/arrange_meshes.py:68 | The sort is a permutation of the items, ordered by non-increasing area. |
| Grid.SortStable | mavhod_blender_addon/arrange_meshes.py:68 | For every area, the items of that area keep their selection order, as Python's stable sort promises. |
| Grid.SortByAreaSorts | mavhod_blender_addon/arrange_meshes.py:57-68 | The order produced is a stable, non-increasing permutation of the items. |
| Grid.CeilSqrt | mavhod_blender_addon/arrange_meshes.py:75 | Computes the least `c` with `c * c >= n`, which is `ceil(sqrt(n))`. |
| Grid.CeilSqrtUnique | mavhod_blender_addon/arrange_meshes.py:75 | That characterisation has exactly one solution. |
| Grid.Columns | mavhod_blender_addon/arrange_meshes.py:71-75 | The column count is `columns` when positive, else `ceil(sqrt(n))`, and positive whenever there is an item. |
| Grid.RowDepth | mavhod_blender_addon/arrange_meshes.py:107 | A row's height is non-negative and at least the depth of each of its items. It is 0 or the depth of one of them. |
| Grid.Layout | mavhod_blender_addon/arrange_meshes.py:87-108 | The fold makes one placement per item, all on the ground plane. With at least one column, the first item is placed at the origin in row 0, column 0. |
| Grid.PlacementFromCursor | mavhod_blender_addon/arrange_meshes.py:91-101 | Item k is placed at the running cursor when the row has room, else at x = 0 one row lower. z is 0, and `row * cols + col == k`. |
| Grid.RowAndColumn | mavhod_blender_addon/arrange_meshes.py:87-108 | Item k lands in row `k / cols` and column `k % cols`. |
| Grid.XAdvance | mavhod_blender_addon/arrange_meshes.py:92-106 | A row starts at x = 0. Each later item sits the previous width plus the spacing to the right of its predecessor. |
| Grid.YAdvance | mavhod_blender_addon/arrange_meshes.py:92-107 | Within a row y is constant. A new row starts below the previous one by that row's greatest depth plus the spacing. |
| Grid.YNonIncreasing | mavhod_blender_addon/arrange_meshes.py:95 | With non-negative spacing, y never increases from one item to the next. |
| Grid.RowCount | mavhod_blender_addon/arrange_meshes.py:98-110 | The reported row count `row_num + 1` is `ceil(n / cols)`. |
| Grid.Meshes | mavhod_blender_addon/arrange_meshes.py:47 | Keeps exactly the selected meshes. A single object is kept alone or dropped. |
| Grid.MeshesAppend | mavhod_blender_addon/arrange_meshes.py:47 | Filtering a concatenation filters each part and concatenates. So the meshes come in selection order, each once per occurrence. |
| Grid.Arrange | mavhod_blender_addon/arrange_meshes.py:45-113 | Cancels exactly when no mesh is selected. Otherwise: the placement order is the stable area sort of the meshes, the column rule holds, there is one placement per mesh from the row-wrapping fold, and the row count is `ceil(n / cols)`. |
| ExportJob.SourceFolder | mavhod_blender_addon/export_scene.py:54-64 | The folder is the linked library's folder name, else the saved blend file's folder name, else `local`. It never contains '/'. |
| ExportJob.Root | mavhod_blender_addon/export_scene.py:66-72 | Linked objects use the asset path and local ones the scene path, falling back to the scene path, then to the asset path. The root is empty exactly when both paths are. |
| ExportJob.DestinationOf | mavhod_blender_addon/export_scene.py:74-83 | Linked: the parent is `root/folder` and the asset path `folder/<mesh>.gltf`. Local: the parent is the root and the asset path `<mesh>.gltf`. The glTF path is `parent/<mesh>.gltf`. |
| ExportJob.AssetPathResolves | mavhod_blender_addon/export_scene.py:135 | The manifest `asset_path` joined to the root is exactly the file the glTF is exported to. |
| ExportJob.RecordOf | mavhod_blender_addon/export_scene.py:179-189 | The record holds the object's name, mesh name, linked flag, asset path and transform. |
| ExportJob.MeshesOf | mavhod_blender_addon/export_scene.py:207 | Keeps exactly the selected meshes. A single object is kept alone or dropped. |
| ExportJob.MeshesOfAppend | mavhod_blender_addon/export_scene.py:207 | Filtering a concatenation filters each part and concatenates. So the job's objects, and its total, follow selection order, each occurrence once. |
| ExportJob.Invoke | mavhod_blender_addon/export_scene.py:194-223 | Cancels with a warning exactly when the scene path is empty or no mesh is selected. Otherwise it starts a fresh job: index 0, total the number of meshes, nothing exported, an empty manifest, and the selection remembered. |
| ExportJob.InvokeEstablishes | mavhod_blender_addon/export_scene.py:207-217 | A freshly started job satisfies the job invariant. |
| ExportJob.ExportMesh | mavhod_blender_addon/export_scene.py:130-176 | Exporting isolates the object in the selection. |
| ExportJob.Advance | mavhod_blender_addon/export_scene.py:51-190 | A tick appends exactly one manifest record and advances the index by one. The mesh name is recorded as exported exactly when the root is non-empty and the name is new. Nothing else in the job changes. |
| ExportJob.ExportEffect | mavhod_blender_addon/export_scene.py:92-176 | The scene and disk change only when the mesh is exported now, and then the object ends up selected alone. |
| ExportJob.Finish | mavhod_blender_addon/export_scene.py:225-250 | The selection is restored. The result is CANCELLED exactly when the manifest cannot be written, else FINISHED. Then the manifest is on disk and the report counts instances and unique glTFs. |
| ExportJob.Tick | mavhod_blender_addon/export_scene.py:45-192 | Non-TIMER events change nothing. A TIMER tick finishes once the index reaches the total. Otherwise it appends one record and advances the index by one. |
| ExportJob.AdvancePreserves | mavhod_blender_addon/export_scene.py:92-190 | Processing an object keeps the invariant: one record per processed object, in selection order, and each processed mesh name exported exactly once. |
| ExportJob.TickPreserves | mavhod_blender_addon/export_scene.py:45-192 | Every tick keeps the job invariant. |
| ExportJob.ExportsNowFirst | mavhod_blender_addon/export_scene.py:92 | In a running job, the current object's mesh is exported exactly when no earlier selected object has the same mesh name. |
| ExportJob.ExportedAtMostOnce | mavhod_blender_addon/export_scene.py:92-145 | The exported names never exceed the processed objects, and every name is exported once. |
| ExportJob.Run | mavhod_blender_addon/export_scene.py:45-250 | TIMER ticks until the job is over end with the selection and active object restored, and with the job FINISHED or CANCELLED. |
| ExportJob.RunResult | mavhod_blender_addon/export_scene.py:225-250 | A whole run ends with the selection restored, and it is cancelled exactly when the manifest cannot be written. Otherwise the manifest lists one record per selected mesh in selection order, and the report counts each distinct mesh name once. |
| ExportImages.NodeImages | mavhod_blender_addon/export_scene.py:104-106 | An image is collected exactly when it is the image of some image-texture node of the material. |
| ExportImages.NodeImagesInOrder | mavhod_blender_addon/export_scene.py:104-106 | There is one collected image per image-texture node with an image. The node at position j contributes the entry whose index is the number of such nodes before j, so the images follow iteration order. |
| ExportImages.SlotImages | mavhod_blender_addon/export_scene.py:102-106 | An image is collected exactly when some slot whose material uses nodes has it on a node. A single slot contributes its material's node images, or nothing when it has no material or does not use nodes. |
| ExportImages.SlotImagesAppend | mavhod_blender_addon/export_scene.py:102-106 | Collecting over a concatenation of slots collects each part and concatenates. So images follow slot order, then node order within a slot. |
| ExportImages.Dedup | mavhod_blender_addon/export_scene.py:100-108 | The kept images' identities are exactly the not-yet-seen identities of the input. |
| ExportImages.DedupFirstSeen | mavhod_blender_addon/export_scene.py:100-108 | Each kept image is the first with its identity, in order of first appearance. |
| ExportImages.TexDestinationShape | mavhod_blender_addon/export_scene.py:113-120 | A texture's destination lies under the texture root and ends in `texture/<file name>`. |
| ExportImages.MakeEntry | mavhod_blender_addon/export_scene.py:110-128 | An image gets a destination exactly when its path is set and its absolute source exists. That destination is `tex_root/<source folder>/texture/<file>`, with the URI relative to the glTF folder. |
| ExportImages.CollectEntries | mavhod_blender_addon/export_scene.py:97-128 | The entries' image identities are exactly those of the collected images, and no two entries share one. Each entry holds the first collected image with its identity, the entries come in order of first occurrence, and each entry is the destination rule applied to its image. |
| ExportImages.Slashed | mavhod_blender_addon/export_scene.py:171 | Every backslash becomes '/', and no backslash remains. Other characters and the length are kept. |
| ExportImages.MoveFiles | mavhod_blender_addon/export_scene.py:160-168 | The exporter's adjacent copy is removed and is gone afterwards unless it is also the destination. No other file changes, and the only possible new file is the destination. When the source survives that removal, the destination exists afterwards, and if it was absent it holds the source's contents. |
| ExportImages.PatchFrom | mavhod_blender_addon/export_scene.py:154-171 | Images are paired with entries by position. Each eligible entry with a destination gets the slashed relative URI, and every other image is unchanged. No file other than an eligible position's adjacent copy is removed or changed, and new files are destinations of rewritten positions. That the copies do go, and that destinations are written, is stated by ExportImages.PatchRemoves and ExportImages.PatchCopies. |
| ExportImages.PatchRemoves | mavhod_blender_addon/export_scene.py:153-163 | Across the image loop, the exporter's adjacent copy of every eligible position is gone from the disk afterwards, unless that position or a later rewritten one has the same path as its destination. |
| ExportImages.PatchCopies | mavhod_blender_addon/export_scene.py:153-168 | Across the image loop, a rewritten position whose source is still on disk when its turn comes leaves its destination on disk, unless a later position's removal deletes that path. When no file was there and no earlier rewritten position shares the destination, the destination holds the source's contents. |
| ExportImages.PatchGltf | mavhod_blender_addon/export_scene.py:148-176 | The disk is untouched unless a glTF document is there, and then one remains. |
| ExportImages.PatchEffect | mavhod_blender_addon/export_scene.py:148-176 | The patch keeps the number of images and every other field. A URI changes only at a rewritten position, and there it becomes the slashed relative path. |
| Files.RemoveIfFile | mavhod_blender_addon/export_scene.py:162-163 | The path is gone and every other file is as before. |

## Left out

- User interface: dialogs, `draw`, the timer handle, the progress bar, status text and printing. The model keeps only their effect on the job state and the reports.
- The glTF exporter and importer and template loading (`load_template_materials`). The exporter is a function from path and object to the files it writes. The importer is a function from path to the new objects, or none when it raises. The template is an optional input.
- `os.makedirs`: directories are not modelled. The disk is a map of regular files, so `isfile` and `exists` both mean membership.
- Exceptions from `json.load`, `os.remove` and `shutil.copy2` other than a non-glTF file at the export path. That case is the one modelled source of the "Could not reorganize textures/patch GLTF" warning. The source appends the exception text to that warning; the model keeps only the fixed prefix. Exporter exceptions are left out.
- `bpy.path.abspath` and `os.path.relpath` are uninterpreted host functions. Symlinks, drive letters and Windows separators are not modelled. `os.path.join`, `basename` and `dirname` follow POSIX rules.
- `str.lower` is modelled on ASCII letters only.
- Floating-point arithmetic: sizes, spacing and positions are exact reals, and `ceil(sqrt(n))` is the exact integer ceiling root. The matrix decomposition of the manifest transform and the world-space bounding-box transform are inputs.
- Group nodes always carry a node tree, and so does a template material. A group without one would raise at `node.node_tree.name`, and a template material without a node tree (one that never used nodes) would raise at `template_material.node_tree.nodes` (import_gltf.py:48). Both cases are left out.
- GltfImport.ConvertedNames: Blender's renaming of clashing datablock names (`.001` suffixes) when a material is copied, and its truncation of datablock names (63 bytes in Blender 4.x), are not modelled. For a long name, or one that clashes, the copy is not named `<original>_FePBR` as this lemma and GltfImport.ReconvertNames state.
- A mesh object whose datablock is missing from the importer's map of new meshes is skipped by the object loop. In Blender every mesh object has its mesh, so the case does not arise.
- The iteration order of the set of new objects after an import is unspecified. It is taken as the order the importer reports.
- `create_convex.py`, `import_fbx.py`, the registration modules and `extract_meshes.py` are not part of this model.
- An object is linked when `obj.library or obj.data.library` has a file path, so the object's own library wins even when its file path is empty. The source folder is the base name of the library's directory.
- Grid.BoundsSize: states that the x and y extents are attained by two corners but not the z extent, which nothing downstream reads.
- ExportJob.Invoke: states that a cancel adds one report but not its text.
- ExportImages.PatchGltf: its own contract only says the document survives. The rewrite itself is stated by ExportImages.PatchEffect and ExportImages.PatchFrom.
- ExportJob.ExportMesh: its contract covers only the selection. The disk effect is stated through ExportImages.PatchFrom and ExportImages.PatchEffect.

=== FILE: base.dfy ===
/** Small shared vocabulary: optional values and 3-vectors. */
module Base {

  /** A value that may be absent; Python's `None` where the add-on uses it. */
  datatype Option<+T> = None | Some(value: T) {

    /** The value if present, otherwise `default`. */
    function GetOr(default: T): T {
      match this
      case Some(v) => v
      case None => default
    }
  }

  /** A point or extent in Blender's world coordinates. */
  datatype Vec3 = Vec3(x: real, y: real, z: real)
}

=== FILE: export_images.dfy ===
/**
 * Texture handling of one export (export_scene.py lines 96-176): collect the
 * object's images once each, work out where each source file should live
 * under the texture root, and after the host exporter has written the glTF,
 * patch its `images` array by position to point at those shared copies.
 */
module ExportImages {
  import opened Base
  import opened Strings
  import opened Paths
  import opened Shading
  import opened Files

  // ---------------------------------------------------------------------
  // Collection (lines 100-128).
  // ---------------------------------------------------------------------

  /** The image an image-texture node shows (`node.type == 'TEX_IMAGE' and node.image`), if any. */
  function NodeImage(g: Graph, id: NodeId): Option<Image> {
    if id in g.nodes && g.nodes[id].kind.TexImage? then g.nodes[id].kind.image else None
  }

  /**
   * The images of image-texture nodes among `g.order[from..]`, in node order,
   * repeats included: every image collected is shown by such a node, and
   * every such node's image is collected.
   */
  function NodeImages(g: Graph, from: nat := 0): (imgs: seq<Image>)
    requires from <= |g.order|
    ensures forall img :: img in imgs ==> exists j :: from <= j < |g.order| && NodeImage(g, g.order[j]) == Some(img)
    ensures forall j :: from <= j < |g.order| && NodeImage(g, g.order[j]).Some? ==> NodeImage(g, g.order[j]).value in imgs
    decreases |g.order| - from
  {
    if from == |g.order| then []
    else
      var rest := NodeImages(g, from + 1);
      var id := g.order[from];
      if NodeImage(g, id).Some? then [NodeImage(g, id).value] + rest else rest
  }

  /** The number of image-texture nodes with an image among `g.order[from..upto]`. */
  function ImageNodeCount(g: Graph, from: nat, upto: nat): nat
    requires upto <= |g.order|
    decreases upto - from
  {
    if from >= upto then 0
    else (if NodeImage(g, g.order[from]).Some? then 1 else 0) + ImageNodeCount(g, from + 1, upto)
  }

  /** The order of `NodeImages`: the image of the n-th image-bearing node is the n-th image collected. */
  lemma {:induction false} NodeImagesInOrder(g: Graph, from: nat)
    requires from <= |g.order|
    ensures |NodeImages(g, from)| == ImageNodeCount(g, from, |g.order|)
    ensures forall j :: from <= j < |g.order| && NodeImage(g, g.order[j]).Some? ==>
              ImageNodeCount(g, from, j) < |NodeImages(g, from)|
              && NodeImages(g, from)[ImageNodeCount(g, from, j)] == NodeImage(g, g.order[j]).value
    decreases |g.order| - from
  {
    NodeImagesLength(g, from);
    if from < |g.order| {
      NodeImagesInOrder(g, from + 1);
      NodeImagesStep(g, from);
    }
  }

  /** The number of images collected from `from` on is the number of image-bearing nodes there. */
  lemma {:induction false} NodeImagesLength(g: Graph, from: nat)
    requires from <= |g.order|
    ensures |NodeImages(g, from)| == ImageNodeCount(g, from, |g.order|)
    decreases |g.order| - from
  {
    if from < |g.order| {
      NodeImagesLength(g, from + 1);
    }
  }

  /** The order claim from `from + 1` on extends to `from`. */
  lemma NodeImagesStep(g: Graph, from: nat)
    requires from < |g.order|
    requires |NodeImages(g, from + 1)| == ImageNodeCount(g, from + 1, |g.order|)
    requires forall j :: from + 1 <= j < |g.order| && NodeImage(g, g.order[j]).Some? ==>
               ImageNodeCount(g, from + 1, j) < |NodeImages(g, from + 1)|
               && NodeImages(g, from + 1)[ImageNodeCount(g, from + 1, j)] == NodeImage(g, g.order[j]).value
    ensures forall j :: from <= j < |g.order| && NodeImage(g, g.order[j]).Some? ==>
              ImageNodeCount(g, from, j) < |NodeImages(g, from)|
              && NodeImages(g, from)[ImageNodeCount(g, from, j)] == NodeImage(g, g.order[j]).value
  {
    forall j | from <= j < |g.order| && NodeImage(g, g.order[j]).Some?
      ensures ImageNodeCount(g, from, j) < |NodeImages(g, from)|
              && NodeImages(g, from)[ImageNodeCount(g, from, j)] == NodeImage(g, g.order[j]).value
    {
      NodeImagesAt(g, from, j);
    }
  }

  /** One step of `NodeImagesInOrder`: position `j` from `from`, given the claim from `from + 1`. */
  lemma NodeImagesAt(g: Graph, from: nat, j: nat)
    requires from <= j < |g.order| && NodeImage(g, g.order[j]).Some?
    requires |NodeImages(g, from + 1)| == ImageNodeCount(g, from + 1, |g.order|)
    requires from < j ==> ImageNodeCount(g, from + 1, j) < |NodeImages(g, from + 1)|
                          && NodeImages(g, from + 1)[ImageNodeCount(g, from + 1, j)] == NodeImage(g, g.order[j]).value
    ensures ImageNodeCount(g, from, j) < |NodeImages(g, from)|
            && NodeImages(g, from)[ImageNodeCount(g, from, j)] == NodeImage(g, g.order[j]).value
  {
    var rest := NodeImages(g, from + 1);
    var here := NodeImage(g, g.order[from]);
    var all := NodeImages(g, from);
    assert all == (if here.Some? then [here.value] + rest else rest);
    if from < j {
      var c := ImageNodeCount(g, from + 1, j);
      assert ImageNodeCount(g, from, j) == (if here.Some? then 1 else 0) + c;
      ConsIndex(all, rest, here, c);
    } else {
      assert ImageNodeCount(g, from, j) == 0;
    }
  }

  /** Indexing past an optional head. */
  lemma ConsIndex<T>(all: seq<T>, rest: seq<T>, head: Option<T>, c: nat)
    requires all == (if head.Some? then [head.value] + rest else rest) && c < |rest|
    ensures (if head.Some? then 1 else 0) + c < |all| && all[(if head.Some? then 1 else 0) + c] == rest[c]
  {
  }

  /** Slot `slot` holds a material whose `use_nodes` is set. */
  predicate UsesNodes(slot: Option<Material>) {
    slot.Some? && slot.value.useNodes
  }

  /**
   * The images of every slot whose material uses nodes, slot by slot: an
   * image is collected exactly when such a slot's tree shows it.
   */
  function SlotImages(slots: seq<Option<Material>>): (imgs: seq<Image>)
    ensures forall s, img :: 0 <= s < |slots| && UsesNodes(slots[s]) && img in NodeImages(slots[s].value.tree) ==> img in imgs
    ensures forall img :: img in imgs ==> exists s :: 0 <= s < |slots| && UsesNodes(slots[s]) && img in NodeImages(slots[s].value.tree)
    ensures |slots| == 1 ==> imgs == (if UsesNodes(slots[0]) then NodeImages(slots[0].value.tree) else [])
    decreases |slots|
  {
    if slots == [] then []
    else
      var here := if UsesNodes(slots[0]) then NodeImages(slots[0].value.tree) else [];
      var rest := SlotImages(slots[1..]);
      assert forall s :: 1 <= s < |slots| ==> slots[s] == slots[1..][s - 1];
      assert |slots| == 1 ==> rest == [];
      here + rest
  }

  /** Collection commutes with concatenating slot lists, which with the one-slot case fixes its order. */
  lemma {:induction false} SlotImagesAppend(a: seq<Option<Material>>, b: seq<Option<Material>>)
    ensures SlotImages(a + b) == SlotImages(a) + SlotImages(b)
    decreases |a|
  {
    if a != [] {
      assert (a + b)[1..] == a[1..] + b;
      SlotImagesAppend(a[1..], b);
    } else {
      assert a + b == b;
    }
  }

  /** Index of the first image in `imgs` with this key, or `|imgs|` when there is none. */
  function IndexOfKey(imgs: seq<Image>, key: nat): (k: nat)
    ensures k <= |imgs|
    ensures k < |imgs| ==> imgs[k].key == key
    ensures forall j :: 0 <= j < k ==> imgs[j].key != key
    decreases |imgs|
  {
    if imgs == [] then 0
    else if imgs[0].key == key then 0
    else 1 + IndexOfKey(imgs[1..], key)
  }

  /** Past a first image of another key, the first index of `key` moves up by one. */
  lemma IndexOfKeyTail(imgs: seq<Image>, key: nat)
    requires imgs != [] && imgs[0].key != key
    ensures IndexOfKey(imgs, key) == 1 + IndexOfKey(imgs[1..], key)
  {
  }

  /** The keys occurring in `imgs`. */
  function KeysOf(imgs: seq<Image>): set<nat> {
    set i | 0 <= i < |imgs| :: imgs[i].key
  }

  lemma KeysOfCons(imgs: seq<Image>)
    requires imgs != []
    ensures KeysOf(imgs) == {imgs[0].key} + KeysOf(imgs[1..])
  {
    forall k | k in KeysOf(imgs) ensures k in {imgs[0].key} + KeysOf(imgs[1..]) {
      var i :| 0 <= i < |imgs| && imgs[i].key == k;
      if i > 0 {
        assert imgs[1..][i - 1] == imgs[i];
      }
    }
    forall k | k in KeysOf(imgs[1..]) ensures k in KeysOf(imgs) {
      var i :| 0 <= i < |imgs[1..]| && imgs[1..][i].key == k;
      assert imgs[i + 1] == imgs[1..][i];
    }
  }

  /**
   * The `seen_ids` loop: each image whose key is not yet seen, once, in order.
   * The kept keys are exactly the unseen keys of `imgs`.
   */
  function Dedup(imgs: seq<Image>, seen: set<nat>): (r: seq<Image>)
    ensures KeysOf(r) == KeysOf(imgs) - seen
    decreases |imgs|
  {
    if imgs == [] then []
    else
      var key := imgs[0].key;
      KeysOfCons(imgs);
      if key in seen then Dedup(imgs[1..], seen)
      else
        var rest := Dedup(imgs[1..], seen + {key});
        var r := [imgs[0]] + rest;
        assert r[1..] == rest;
        KeysOfCons(r);
        r
  }

  /**
   * `r` lists first images of their keys in `imgs`, in order of first
   * appearance (so no key twice).
   */
  ghost predicate FirstOccurrences(imgs: seq<Image>, r: seq<Image>) {
    && (forall i :: 0 <= i < |r| ==> IndexOfKey(imgs, r[i].key) < |imgs| && imgs[IndexOfKey(imgs, r[i].key)] == r[i])
    && (forall i, j :: 0 <= i < j < |r| ==> IndexOfKey(imgs, r[i].key) < IndexOfKey(imgs, r[j].key))
  }

  /** Keeping the first image of a new key in front of first occurrences in the tail. */
  lemma FirstOccurrencesCons(imgs: seq<Image>, rest: seq<Image>)
    requires imgs != [] && FirstOccurrences(imgs[1..], rest)
    requires forall i :: 0 <= i < |rest| ==> rest[i].key != imgs[0].key
    ensures FirstOccurrences(imgs, [imgs[0]] + rest)
    ensures FirstOccurrences(imgs, rest)
  {
    forall i | 0 <= i < |rest|
      ensures IndexOfKey(imgs, rest[i].key) == 1 + IndexOfKey(imgs[1..], rest[i].key)
      ensures imgs[IndexOfKey(imgs, rest[i].key)] == rest[i]
    {
      IndexOfKeyTail(imgs, rest[i].key);
      assert imgs[1 + IndexOfKey(imgs[1..], rest[i].key)] == imgs[1..][IndexOfKey(imgs[1..], rest[i].key)];
    }
    var r := [imgs[0]] + rest;
    assert forall i :: 1 <= i < |r| ==> r[i] == rest[i - 1];
  }

  /** The images `Dedup` keeps are the first images of their keys, in order of first appearance. */
  lemma {:induction false} DedupFirstSeen(imgs: seq<Image>, seen: set<nat>)
    ensures FirstOccurrences(imgs, Dedup(imgs, seen))
    decreases |imgs|
  {
    if imgs != [] {
      var key := imgs[0].key;
      var seen' := if key in seen then seen else seen + {key};
      var rest := Dedup(imgs[1..], seen');
      DedupFirstSeen(imgs[1..], seen');
      forall i | 0 <= i < |rest| ensures rest[i].key != key {
        assert rest[i].key in KeysOf(rest);
      }
      FirstOccurrencesCons(imgs, rest);
    }
  }

  /** Where a source texture moves: its own path, its shared destination, and the glTF-relative URI. */
  datatype Relocation = Relocation(src: string, dst: string, rel: string)

  /** One collected image and, when its source file exists, where it goes. */
  datatype ImageEntry = ImageEntry(image: Image, reloc: Option<Relocation>)

  /** Line 117 and 120: `tex_root/<source folder name>/texture/<file name>`. */
  function TexDestination(texRoot: string, src: string): string {
    Join(Join(Join(texRoot, Basename(Dirname(src))), "texture"), Basename(src))
  }

  /** No '/' means not absolute. */
  lemma NoSlashRelative(s: string)
    requires '/' !in s
    ensures !IsAbsolute(s)
  {
    if |s| > 0 {
      assert s[0] in s;
    }
  }

  /** The destination is `<folder path>/<file name>` where the folder path is `tex_root/<source folder name>/texture`. */
  lemma TexDestinationForm(texRoot: string, src: string)
    ensures var b := Join(Join(texRoot, Basename(Dirname(src))), "texture");
            && TexDestination(texRoot, src) == b + "/" + Basename(src)
            && StartsWith(b, texRoot)
            && EndsWith(b, "texture")
  {
    var a := Join(texRoot, Basename(Dirname(src)));
    var b := Join(a, "texture");
    NoSlashRelative(Basename(Dirname(src)));
    NoSlashRelative(Basename(src));
    assert Sep(b) == "/" by { assert b[|b| - 1] == 'e'; }
    StartsWithExtend(b, a, texRoot);
  }

  /** The destination lies under the texture root and keeps the source's file name in a `texture` folder. */
  lemma TexDestinationShape(texRoot: string, src: string)
    ensures StartsWith(TexDestination(texRoot, src), texRoot)
    ensures EndsWith(TexDestination(texRoot, src), "texture/" + Basename(src))
  {
    TexDestinationForm(texRoot, src);
    var b := Join(Join(texRoot, Basename(Dirname(src))), "texture");
    var d := b + "/" + Basename(src);
    EndsWithAppend(b, "texture", "/");
    EndsWithAppend(b + "/", "texture/", Basename(src));
    assert StartsWith(d, b);
    StartsWithExtend(d, b, texRoot);
  }

  /**
   * Lines 110-128 for one image. `abspath` and `relpath` stand for
   * `bpy.path.abspath` and `os.path.relpath`; `fs` is the disk before export.
   */
  function MakeEntry(img: Image, fs: FileSystem, abspath: string -> string,
                     relpath: (string, string) -> string, texRoot: string, parent: string): (e: ImageEntry)
    ensures e.image == img
    ensures e.reloc.Some? <==> img.filepath != "" && abspath(img.filepath) != "" && abspath(img.filepath) in fs
    ensures e.reloc.Some? ==>
              && e.reloc.value.src == abspath(img.filepath)
              && e.reloc.value.dst == TexDestination(texRoot, e.reloc.value.src)
              && e.reloc.value.rel == relpath(e.reloc.value.dst, parent)
  {
    var src := if img.filepath != "" then Some(abspath(img.filepath)) else None;
    if src.Some? && src.value != "" && src.value in fs then
      var dst := TexDestination(texRoot, src.value);
      ImageEntry(img, Some(Relocation(src.value, dst, relpath(dst, parent))))
    else ImageEntry(img, None)
  }

  /** The image keys the entries carry. */
  function EntryKeys(es: seq<ImageEntry>): set<nat> {
    set i | 0 <= i < |es| :: es[i].image.key
  }

  /**
   * `ordered_images`: one entry per distinct image of the object's node-based
   * materials. Every image key collected appears, once, with the entry
   * holding the first image of that key; entries follow first appearance.
   */
  function CollectEntries(slots: seq<Option<Material>>, fs: FileSystem, abspath: string -> string,
                          relpath: (string, string) -> string, texRoot: string, parent: string): (es: seq<ImageEntry>)
    ensures var imgs := SlotImages(slots);
            && EntryKeys(es) == KeysOf(imgs)
            && (forall i :: 0 <= i < |es| ==> es[i] == MakeEntry(es[i].image, fs, abspath, relpath, texRoot, parent))
            && (forall i :: 0 <= i < |es| ==>
                  IndexOfKey(imgs, es[i].image.key) < |imgs| && imgs[IndexOfKey(imgs, es[i].image.key)] == es[i].image)
            && (forall i, j :: 0 <= i < j < |es| ==> IndexOfKey(imgs, es[i].image.key) < IndexOfKey(imgs, es[j].image.key))
            && (forall i, j :: 0 <= i < j < |es| ==> es[i].image.key != es[j].image.key)
  {
    var imgs := Dedup(SlotImages(slots), {});
    DedupFirstSeen(SlotImages(slots), {});
    var es := seq(|imgs|, i requires 0 <= i < |imgs| => MakeEntry(imgs[i], fs, abspath, relpath, texRoot, parent));
    assert EntryKeys(es) == KeysOf(imgs) by {
      assert forall i :: 0 <= i < |es| ==> es[i].image == imgs[i];
    }
    es
  }

  // ---------------------------------------------------------------------
  // Patch (lines 148-176).
  // ---------------------------------------------------------------------

  /** Line 171: the relative path with every backslash turned into a forward slash. */
  function Slashed(rel: string): (r: string)
    ensures |r| == |rel| && '\\' !in r
    ensures forall i :: 0 <= i < |rel| && rel[i] != '\\' ==> r[i] == rel[i]
    ensures forall i :: 0 <= i < |rel| && rel[i] == '\\' ==> r[i] == '/'
  {
    ReplaceChar(rel, '\\', '/')
  }

  /** Line 158: position `k` is paired with an entry and its image is an external file with a URI. */
  predicate Eligible(entries: seq<ImageEntry>, images: seq<GltfImage>, k: nat) {
    k < |entries| && k < |images| && UriOf(images[k]) != "" && images[k].bufferView.None?
  }

  /** Lines 165-171: position `k` gets its URI rewritten. */
  predicate Rewrites(entries: seq<ImageEntry>, images: seq<GltfImage>, k: nat) {
    Eligible(entries, images, k) && entries[k].reloc.Some?
  }

  /** Line 161: the image the exporter wrote next to the glTF for position `k`. */
  function TempPath(parent: string, images: seq<GltfImage>, k: nat): string
    requires k < |images|
  {
    Join(parent, UriOf(images[k]))
  }

  datatype Patched = Patched(images: seq<GltfImage>, fs: FileSystem)

  /** Lines 160-168 for one eligible position: drop the exporter's copy, then copy the source home if absent. */
  function MoveFiles(fs: FileSystem, temp: string, reloc: Option<Relocation>): (r: FileSystem)
    ensures forall p :: p in fs && p != temp ==> p in r && r[p] == fs[p]
    ensures forall p :: p in r && p !in fs ==> reloc.Some? && p == reloc.value.dst
    ensures reloc.Some? && reloc.value.src != "" && reloc.value.src in RemoveIfFile(fs, temp) ==>
              && reloc.value.dst in r
              && (reloc.value.dst !in RemoveIfFile(fs, temp) ==> r[reloc.value.dst] == fs[reloc.value.src])
    ensures reloc.None? || reloc.value.dst != temp ==> temp !in r
  {
    var fs1 := RemoveIfFile(fs, temp);
    if reloc.Some? && reloc.value.src != "" && reloc.value.src in fs1 && reloc.value.dst !in fs1 then
      fs1[reloc.value.dst := fs1[reloc.value.src]]
    else fs1
  }

  /** Line 171 at position `i`: a rewritten position gets the slashed relative URI; every other entry is untouched. */
  function ImagesStep(entries: seq<ImageEntry>, images: seq<GltfImage>, i: nat): (r: seq<GltfImage>)
    requires i < |entries| && i < |images|
    ensures |r| == |images|
    ensures r[i] == (if Rewrites(entries, images, i) then images[i].(uri := Some(Slashed(entries[i].reloc.value.rel))) else images[i])
    ensures forall k :: 0 <= k < |images| && k != i ==> r[k] == images[k]
    ensures forall k :: i < k < |images| ==>
              Eligible(entries, r, k) == Eligible(entries, images, k) && Rewrites(entries, r, k) == Rewrites(entries, images, k)
  {
    if Rewrites(entries, images, i)
    then images[i := images[i].(uri := Some(Slashed(entries[i].reloc.value.rel)))]
    else images
  }

  /** Lines 160-168 at position `i`: only an eligible position touches the disk. */
  function FilesStep(entries: seq<ImageEntry>, images: seq<GltfImage>, fs: FileSystem, parent: string, i: nat): FileSystem
    requires i < |entries| && i < |images|
  {
    if Eligible(entries, images, i) then MoveFiles(fs, TempPath(parent, images, i), entries[i].reloc) else fs
  }

  /**
   * The loop of lines 154-171 from position `i` on. The results: each
   * eligible image with a destination gets the slashed relative URI and
   * nothing else changes in `images`; no existing file is overwritten and
   * only the exporter's adjacent copies are removed; every new file is the
   * destination of a rewritten position.
   */
  function PatchFrom(entries: seq<ImageEntry>, images: seq<GltfImage>, fs: FileSystem, parent: string, i: nat): (r: Patched)
    ensures |r.images| == |images|
    ensures forall k :: 0 <= k < |images| ==>
              r.images[k] == (if i <= k && Rewrites(entries, images, k)
                              then images[k].(uri := Some(Slashed(entries[k].reloc.value.rel)))
                              else images[k])
    ensures forall p :: p in fs && (forall k :: i <= k < |images| && Eligible(entries, images, k) ==> p != TempPath(parent, images, k))
              ==> p in r.fs && r.fs[p] == fs[p]
    ensures forall p :: p in r.fs && p !in fs ==>
              exists k :: i <= k < |images| && Rewrites(entries, images, k) && p == entries[k].reloc.value.dst
    decreases |entries| - i
  {
    if i >= |entries| || i >= |images| then Patched(images, fs)
    else PatchFrom(entries, ImagesStep(entries, images, i), FilesStep(entries, images, fs, parent, i), parent, i + 1)
  }

  /**
   * Lines 160-163 across the loop: the exporter's adjacent copy of an eligible
   * position is gone afterwards, unless that position or a later rewritten one
   * has it as its destination.
   */
  lemma {:induction false} PatchRemoves(entries: seq<ImageEntry>, images: seq<GltfImage>, fs: FileSystem,
                                        parent: string, i: nat, k: nat)
    requires i <= k && Eligible(entries, images, k)
    requires forall j :: k <= j < |images| && Rewrites(entries, images, j) ==>
               entries[j].reloc.value.dst != TempPath(parent, images, k)
    ensures TempPath(parent, images, k) !in PatchFrom(entries, images, fs, parent, i).fs
    decreases k - i
  {
    if i == k {
      PatchRemovesHere(entries, images, fs, parent, k);
    } else {
      var images' := ImagesStep(entries, images, i);
      var fs' := FilesStep(entries, images, fs, parent, i);
      assert PatchFrom(entries, images, fs, parent, i) == PatchFrom(entries, images', fs', parent, i + 1);
      assert TempPath(parent, images', k) == TempPath(parent, images, k);
      PatchRemoves(entries, images', fs', parent, i + 1, k);
    }
  }

  /** `PatchRemoves` at position `k` itself: the copy goes, and no later position brings it back. */
  lemma PatchRemovesHere(entries: seq<ImageEntry>, images: seq<GltfImage>, fs: FileSystem, parent: string, k: nat)
    requires Eligible(entries, images, k)
    requires forall j :: k <= j < |images| && Rewrites(entries, images, j) ==>
               entries[j].reloc.value.dst != TempPath(parent, images, k)
    ensures TempPath(parent, images, k) !in PatchFrom(entries, images, fs, parent, k).fs
  {
    var images' := ImagesStep(entries, images, k);
    var fs' := FilesStep(entries, images, fs, parent, k);
    var temp := TempPath(parent, images, k);
    assert temp !in fs';
    assert PatchFrom(entries, images, fs, parent, k).fs == PatchFrom(entries, images', fs', parent, k + 1).fs;
    forall j | k + 1 <= j < |images'| && Rewrites(entries, images', j)
      ensures entries[j].reloc.value.dst != temp
    {
      assert Rewrites(entries, images, j);
    }
  }

  /** No eligible position in `[lo, hi)` has `p` as the exporter's adjacent copy. */
  predicate Untouched(entries: seq<ImageEntry>, images: seq<GltfImage>, parent: string, p: string, lo: nat, hi: nat) {
    forall k :: lo <= k < hi && Eligible(entries, images, k) ==> p != TempPath(parent, images, k)
  }

  /** What `PatchCopies` needs of the loop from position `i` on, for rewritten position `k`. */
  predicate CopyReady(entries: seq<ImageEntry>, images: seq<GltfImage>, fs: FileSystem, parent: string, i: nat, k: nat) {
    && i <= k && Rewrites(entries, images, k)
    && entries[k].reloc.value.src != "" && entries[k].reloc.value.src in fs
    && Untouched(entries, images, parent, entries[k].reloc.value.src, i, k + 1)
    && Untouched(entries, images, parent, entries[k].reloc.value.dst, k + 1, |images|)
  }

  /** No rewritten position in `[i, k)` shares position `k`'s destination. */
  predicate OwnDestination(entries: seq<ImageEntry>, images: seq<GltfImage>, i: nat, k: nat)
    requires Rewrites(entries, images, k)
  {
    forall j :: i <= j < k && Rewrites(entries, images, j) ==> entries[j].reloc.value.dst != entries[k].reloc.value.dst
  }

  /**
   * What `PatchCopies` promises of the files `r` left by the loop: position
   * `k`'s destination exists, and holds the source's contents when it did
   * not exist before and (`own`) no earlier position shares it.
   */
  ghost predicate CopyLanded(entries: seq<ImageEntry>, fs: FileSystem, k: nat, own: bool, r: FileSystem)
    requires k < |entries| && entries[k].reloc.Some? && entries[k].reloc.value.src in fs
  {
    var rl := entries[k].reloc.value;
    && rl.dst in r
    && (rl.dst !in fs && own ==> r[rl.dst] == fs[rl.src])
  }

  /** `CopyLanded` for the loop from `i` on. */
  ghost predicate CopyDone(entries: seq<ImageEntry>, images: seq<GltfImage>, fs: FileSystem, parent: string, i: nat, k: nat)
    requires CopyReady(entries, images, fs, parent, i, k)
  {
    CopyLanded(entries, fs, k, OwnDestination(entries, images, i, k), PatchFrom(entries, images, fs, parent, i).fs)
  }

  /** A file that is no eligible position's exporter copy from `i` on survives the loop unchanged. */
  lemma PatchKeeps(entries: seq<ImageEntry>, images: seq<GltfImage>, fs: FileSystem, parent: string, i: nat, p: string)
    requires p in fs && Untouched(entries, images, parent, p, i, |images|)
    ensures p in PatchFrom(entries, images, fs, parent, i).fs
    ensures PatchFrom(entries, images, fs, parent, i).fs[p] == fs[p]
  {
  }

  /** At position `k` itself: the copy is made (or a file is already there), and nothing later removes it. */
  lemma PatchCopiesHere(entries: seq<ImageEntry>, images: seq<GltfImage>, fs: FileSystem, parent: string, k: nat)
    requires CopyReady(entries, images, fs, parent, k, k)
    ensures CopyDone(entries, images, fs, parent, k, k)
  {
    var rl := entries[k].reloc.value;
    var temp := TempPath(parent, images, k);
    assert rl.src in RemoveIfFile(fs, temp);
    var fs' := FilesStep(entries, images, fs, parent, k);
    var images' := ImagesStep(entries, images, k);
    assert PatchFrom(entries, images, fs, parent, k) == PatchFrom(entries, images', fs', parent, k + 1);
    assert Untouched(entries, images', parent, rl.dst, k + 1, |images'|) by {
      assert forall j :: k + 1 <= j < |images| ==> images'[j] == images[j];
    }
    PatchKeeps(entries, images', fs', parent, k + 1, rl.dst);
  }

  /** A position before `k` keeps the source in place and moves nothing onto `k`'s destination. */
  lemma PatchCopiesStep(entries: seq<ImageEntry>, images: seq<GltfImage>, fs: FileSystem, parent: string, i: nat, k: nat)
    requires CopyReady(entries, images, fs, parent, i, k) && i < k
    ensures var fs' := FilesStep(entries, images, fs, parent, i);
            var images' := ImagesStep(entries, images, i);
            && CopyReady(entries, images', fs', parent, i + 1, k)
            && (CopyDone(entries, images', fs', parent, i + 1, k) ==> CopyDone(entries, images, fs, parent, i, k))
  {
    var fs' := FilesStep(entries, images, fs, parent, i);
    var images' := ImagesStep(entries, images, i);
    assert PatchFrom(entries, images, fs, parent, i) == PatchFrom(entries, images', fs', parent, i + 1);
    var rl := entries[k].reloc.value;
    assert rl.src in fs' && fs'[rl.src] == fs[rl.src] by {
      if Eligible(entries, images, i) {
        assert rl.src != TempPath(parent, images, i);
      }
    }
    assert rl.dst !in fs && OwnDestination(entries, images, i, k) ==> rl.dst !in fs';
  }

  /**
   * Lines 166-168 across the loop: a rewritten position whose source file is
   * still there when its turn comes leaves its destination on disk, unless
   * a later position's exporter copy has that same path. When no file sat
   * there before and no earlier rewritten position shares the destination,
   * the destination holds the source's contents.
   */
  lemma {:induction false} PatchCopies(entries: seq<ImageEntry>, images: seq<GltfImage>, fs: FileSystem,
                                       parent: string, i: nat, k: nat)
    requires CopyReady(entries, images, fs, parent, i, k)
    ensures CopyDone(entries, images, fs, parent, i, k)
    decreases k - i, 1
  {
    if i == k {
      PatchCopiesHere(entries, images, fs, parent, k);
    } else {
      PatchCopiesOn(entries, images, fs, parent, i, k);
    }
  }

  /** `PatchCopies` from a position before `k`. */
  lemma {:induction false} PatchCopiesOn(entries: seq<ImageEntry>, images: seq<GltfImage>, fs: FileSystem,
                                         parent: string, i: nat, k: nat)
    requires CopyReady(entries, images, fs, parent, i, k) && i < k
    ensures CopyDone(entries, images, fs, parent, i, k)
    decreases k - i, 0
  {
    PatchCopiesStep(entries, images, fs, parent, i, k);
    PatchCopies(entries, ImagesStep(entries, images, i), FilesStep(entries, images, fs, parent, i), parent, i + 1, k);
  }

  /**
   * Lines 148-176: when the exporter left a glTF document at `path`, patch its
   * images and write it back; a missing or unreadable file is left alone.
   */
  function PatchGltf(entries: seq<ImageEntry>, fs: FileSystem, path: string, parent: string): (r: FileSystem)
    ensures path !in fs || !fs[path].Gltf? ==> r == fs
    ensures path in fs && fs[path].Gltf? ==> path in r && r[path].Gltf?
  {
    if path in fs && fs[path].Gltf? then
      var doc := fs[path].doc;
      var p := PatchFrom(entries, ImagesOf(doc), fs, parent, 0);
      var doc' := if doc.images.Some? then doc.(images := Some(p.images)) else doc;
      p.fs[path := Gltf(doc')]
    else fs
  }

  /**
   * Patching never adds or removes image entries and keeps the document's
   * other content; an entry's URI changes only at a rewritten position, and
   * there it becomes the slashed relative path to the shared copy.
   */
  lemma PatchEffect(entries: seq<ImageEntry>, fs: FileSystem, path: string, parent: string)
    requires path in fs && fs[path].Gltf?
    ensures var doc := fs[path].doc;
            var doc' := PatchGltf(entries, fs, path, parent)[path].doc;
            && doc'.rest == doc.rest
            && doc'.images.Some? == doc.images.Some?
            && |ImagesOf(doc')| == |ImagesOf(doc)|
            && forall k :: 0 <= k < |ImagesOf(doc)| ==>
                 && ImagesOf(doc')[k].bufferView == ImagesOf(doc)[k].bufferView
                 && ImagesOf(doc')[k].mimeType == ImagesOf(doc)[k].mimeType
                 && ImagesOf(doc')[k].name == ImagesOf(doc)[k].name
                 && (ImagesOf(doc')[k].uri != ImagesOf(doc)[k].uri ==> Rewrites(entries, ImagesOf(doc), k))
                 && (Rewrites(entries, ImagesOf(doc), k) ==>
                       ImagesOf(doc')[k].uri == Some(Slashed(entries[k].reloc.value.rel)))
  {
  }
}

=== FILE: export_job.dfy ===
/**
 * `MavhodExportExecute`: a modal job that exports the selected mesh objects
 * one per TIMER tick, each distinct mesh datablock to one glTF file, and
 * finally writes the manifest `selected_meshes.json` listing every instance.
 * Everything the job asks of Blender or the disk is an input: the `Host`
 * record carries `bpy.path.abspath`, `os.path.relpath`, the saved blend file
 * path, the glTF exporter and whether the manifest can be written.
 */
module ExportJob {
  import opened Base
  import opened Strings
  import opened Paths
  import opened Shading
  import opened Files
  import opened ExportImages

  datatype Library = Library(filepath: string)

  datatype MeshData = MeshData(name: string, library: Option<Library>)

  /** A selected object: identity, type, library links, material slots and its decomposed local transform. */
  datatype ExportObject = ExportObject(
    id: nat, name: string, isMesh: bool, library: Option<Library>, data: MeshData,
    slots: seq<Option<Material>>, location: Vec3, rotation: Quat, scale: Vec3)

  /**
   * The host environment. `exporter(path, obj)` is the set of files the glTF
   * exporter writes when exporting `obj` alone to `path`.
   */
  datatype Host = Host(
    abspath: string -> string,
    relpath: (string, string) -> string,
    blendPath: string,
    exporter: (string, ExportObject) -> FileSystem,
    canWrite: string -> bool)

  // ---------------------------------------------------------------------
  // Classification and routing (lines 54-83, 135).
  // ---------------------------------------------------------------------

  /** `obj.library or obj.data.library`: the object's own library wins whenever it has one. */
  function LibraryOf(o: ExportObject): Option<Library> {
    if o.library.Some? then o.library else o.data.library
  }

  /** Line 58: linked exactly when that library has a file path. */
  predicate IsLinked(o: ExportObject) {
    LibraryOf(o).Some? && LibraryOf(o).value.filepath != ""
  }

  /** The name of the folder holding `path`: `os.path.basename(os.path.dirname(path))`. */
  function FolderName(path: string): (r: string)
    ensures '/' !in r
  {
    Basename(Dirname(path))
  }

  /**
   * Lines 55-64: the name of the folder the object comes from: its library's
   * folder when linked, else the saved blend file's folder, else "local".
   */
  function SourceFolder(o: ExportObject, host: Host): (r: string)
    ensures '/' !in r
    ensures IsLinked(o) ==> r == FolderName(host.abspath(LibraryOf(o).value.filepath))
    ensures !IsLinked(o) && host.blendPath != "" ==> r == FolderName(host.abspath(host.blendPath))
    ensures !IsLinked(o) && host.blendPath == "" ==> r == "local"
  {
    var lib := LibraryOf(o);
    if lib.Some? && lib.value.filepath != "" then FolderName(host.abspath(lib.value.filepath))
    else if host.blendPath != "" then FolderName(host.abspath(host.blendPath))
    else "local"
  }

  /** Lines 68-72: linked objects go under the asset path, local ones under the scene path, falling back to the other. */
  function Root(linked: bool, assetPath: string, scenePath: string): (r: string)
    ensures r == "" <==> assetPath == "" && scenePath == ""
    ensures r == assetPath || r == scenePath
    ensures linked && assetPath != "" ==> r == assetPath
    ensures !linked && scenePath != "" ==> r == scenePath
  {
    var preferred := if linked then assetPath else scenePath;
    if preferred != "" then preferred
    else if scenePath != "" then scenePath
    else assetPath
  }

  function GltfName(mesh: string): string {
    mesh + ".gltf"
  }

  /** Where one object's glTF goes: its folder, its path relative to the root, and its full path. */
  datatype Destination = Destination(root: string, parent: string, assetPath: string, gltfPath: string)

  /** Lines 74-83 and 135. */
  function DestinationOf(o: ExportObject, host: Host, assetPath: string, scenePath: string): (d: Destination)
    ensures d.root == Root(IsLinked(o), assetPath, scenePath)
    ensures d.gltfPath == Join(d.parent, GltfName(o.data.name))
    ensures IsLinked(o) ==> d.parent == Join(d.root, SourceFolder(o, host))
                             && d.assetPath == Join(SourceFolder(o, host), GltfName(o.data.name))
    ensures !IsLinked(o) ==> d.parent == d.root && d.assetPath == GltfName(o.data.name)
  {
    var linked := IsLinked(o);
    var folder := SourceFolder(o, host);
    var root := Root(linked, assetPath, scenePath);
    var parent := if linked then Join(root, folder) else root;
    var asset := if linked then Join(folder, GltfName(o.data.name)) else GltfName(o.data.name);
    Destination(root, parent, asset, Join(parent, GltfName(o.data.name)))
  }

  /** The manifest's `asset_path`, resolved against the root, is the file the glTF was written to. */
  lemma AssetPathResolves(o: ExportObject, host: Host, assetPath: string, scenePath: string)
    ensures var d := DestinationOf(o, host, assetPath, scenePath);
            d.gltfPath == Join(d.root, d.assetPath)
  {
    var d := DestinationOf(o, host, assetPath, scenePath);
    if IsLinked(o) {
      JoinAssociative(d.root, SourceFolder(o, host), GltfName(o.data.name));
    }
  }

  /** Lines 181-189: the manifest record of one instance. */
  function RecordOf(o: ExportObject, host: Host, assetPath: string, scenePath: string): (r: ManifestRecord)
    ensures r.name == o.name && r.meshData == o.data.name && r.isLinked == IsLinked(o)
    ensures r.assetPath == DestinationOf(o, host, assetPath, scenePath).assetPath
    ensures r.location == o.location && r.rotation == o.rotation && r.scale == o.scale
  {
    ManifestRecord(o.name, o.data.name, IsLinked(o), DestinationOf(o, host, assetPath, scenePath).assetPath,
                   o.location, o.rotation, o.scale)
  }

  // ---------------------------------------------------------------------
  // The job.
  // ---------------------------------------------------------------------

  /** What `self.report` shows. */
  datatype Report =
    | Warning(text: string)
    | Error(text: string)
    | Done(instances: nat, uniqueGltfs: nat)

  /** Blender-side state the job touches: the disk, the selection, and the reports shown. */
  datatype World = World(fs: FileSystem, selected: seq<nat>, active: Option<nat>, reports: seq<Report>)

  /**
   * The operator's fields. `exportOrder` lists mesh names in the order they
   * were exported; `exported` is `_exported_meshes`.
   */
  datatype Job = Job(
    objects: seq<ExportObject>, exported: set<string>, exportOrder: seq<string>,
    index: nat, total: nat, assetPath: string, scenePath: string,
    manifest: seq<ManifestRecord>, originalSelected: seq<nat>, originalActive: Option<nat>)

  datatype Event = Timer | OtherEvent

  /** The operator's return value. */
  datatype Status = RunningModal | PassThrough | Finished | Cancelled

  /** Before the first tick and after each tick the job is either running or over. */
  datatype State = Running(job: Job) | Over

  /** The `exportScenePath` and `exportAssetPath` settings. */
  datatype Settings = Settings(exportScenePath: string, exportAssetPath: string)

  function Ids(objs: seq<ExportObject>): (ids: seq<nat>)
    ensures |ids| == |objs| && forall i :: 0 <= i < |objs| ==> ids[i] == objs[i].id
  {
    seq(|objs|, i requires 0 <= i < |objs| => objs[i].id)
  }

  function MeshesOf(objs: seq<ExportObject>): (ms: seq<ExportObject>)
    ensures |ms| <= |objs|
    ensures forall i :: 0 <= i < |ms| ==> ms[i].isMesh && ms[i] in objs
    ensures forall i :: 0 <= i < |objs| && objs[i].isMesh ==> objs[i] in ms
    ensures |objs| == 1 ==> ms == (if objs[0].isMesh then objs else [])
    decreases |objs|
  {
    if objs == [] then []
    else
      var rest := MeshesOf(objs[1..]);
      assert forall i :: 1 <= i < |objs| ==> objs[i] == objs[1..][i - 1];
      if objs[0].isMesh then [objs[0]] + rest else rest
  }

  /**
   * The filter commutes with concatenation. With the one-object case this
   * fixes the result: the meshes in selection order, repeats included.
   */
  lemma {:induction false} MeshesOfAppend(a: seq<ExportObject>, b: seq<ExportObject>)
    ensures MeshesOf(a + b) == MeshesOf(a) + MeshesOf(b)
    decreases |a|
  {
    if a != [] {
      assert (a + b)[1..] == a[1..] + b;
      MeshesOfAppend(a[1..], b);
    } else {
      assert a + b == b;
    }
  }

  /**
   * `invoke` (lines 194-223): cancel without a scene path or without a
   * selected mesh; otherwise start a fresh job over the selected meshes.
   */
  function Invoke(settings: Settings, selected: seq<ExportObject>, active: Option<nat>,
                  host: Host, world: World): (r: (State, World, Status))
    ensures var scene := host.abspath(settings.exportScenePath);
            r.2 == Cancelled <==> scene == "" || forall i :: 0 <= i < |selected| ==> !selected[i].isMesh
    ensures r.2 != Cancelled ==> r.2 == RunningModal && r.0.Running? && r.1 == world
    ensures r.2 == Cancelled ==> r.0 == Over && r.1.fs == world.fs && |r.1.reports| == |world.reports| + 1
    ensures r.0.Running? ==> var j := r.0.job;
      && j.scenePath == host.abspath(settings.exportScenePath) != ""
      && j.assetPath == (if settings.exportAssetPath != "" then host.abspath(settings.exportAssetPath) else "")
      && j.objects == MeshesOf(selected) && j.total == |j.objects| > 0
      && j.index == 0 && j.exported == {} && j.exportOrder == [] && j.manifest == []
      && j.originalSelected == Ids(selected) && j.originalActive == active
  {
    var scene := host.abspath(settings.exportScenePath);
    var asset := if settings.exportAssetPath != "" then host.abspath(settings.exportAssetPath) else "";
    if scene == "" then
      (Over, world.(reports := world.reports + [Warning("Export Scene Path is not set!")]), Cancelled)
    else
      var objects := MeshesOf(selected);
      if objects == [] then
        (Over, world.(reports := world.reports + [Warning("No mesh objects selected!")]), Cancelled)
      else
        assert objects[0] in selected;
        (Running(Job(objects, {}, [], 0, |objects|, asset, scene, [], Ids(selected), active)), world, RunningModal)
  }

  /** Lines 97, 131-176: export one object's mesh and move its textures; the selection is left on that object. */
  function ExportMesh(o: ExportObject, d: Destination, job: Job, host: Host, world: World): (w: World)
    ensures w.selected == [o.id] && w.active == Some(o.id)
  {
    var texRoot := if job.assetPath != "" then job.assetPath else job.scenePath;
    var entries := CollectEntries(o.slots, world.fs, host.abspath, host.relpath, texRoot, d.parent);
    var fs1 := world.fs + host.exporter(d.gltfPath, o);
    var isolated := world.(selected := [o.id], active := Some(o.id));
    if d.gltfPath in fs1 && fs1[d.gltfPath].Blob? then
      isolated.(fs := fs1, reports := world.reports + [Warning("Could not reorganize textures/patch GLTF")])
    else
      isolated.(fs := PatchGltf(entries, fs1, d.gltfPath, d.parent))
  }

  /** Line 92: the object's mesh is exported now when it has a root and was not exported before. */
  predicate ExportsNow(job: Job, host: Host)
    requires job.index < |job.objects|
  {
    var o := job.objects[job.index];
    DestinationOf(o, host, job.assetPath, job.scenePath).root != "" && o.data.name !in job.exported
  }

  /**
   * Lines 51-190, the job's side: one manifest record for the object at
   * `index`, its mesh name marked exported when it is exported now, and on to
   * the next object. Nothing else about the job changes.
   */
  function Advance(job: Job, host: Host): (j: Job)
    requires job.index < |job.objects|
    ensures j == job.(index := j.index, manifest := j.manifest, exported := j.exported, exportOrder := j.exportOrder)
    ensures j.index == job.index + 1
    ensures j.manifest == job.manifest + [RecordOf(job.objects[job.index], host, job.assetPath, job.scenePath)]
    ensures ExportsNow(job, host) ==> j.exported == job.exported + {job.objects[job.index].data.name}
                                      && j.exportOrder == job.exportOrder + [job.objects[job.index].data.name]
    ensures !ExportsNow(job, host) ==> j.exported == job.exported && j.exportOrder == job.exportOrder
  {
    var o := job.objects[job.index];
    var record := RecordOf(o, host, job.assetPath, job.scenePath);
    var job1 := job.(manifest := job.manifest + [record], index := job.index + 1);
    if ExportsNow(job, host) then
      job1.(exported := job.exported + {o.data.name}, exportOrder := job.exportOrder + [o.data.name])
    else job1
  }

  /** Lines 51-176, Blender's side: the export and texture moves, when the mesh is exported now. */
  function ExportEffect(job: Job, host: Host, world: World): (w: World)
    requires job.index < |job.objects|
    ensures !ExportsNow(job, host) ==> w == world
    ensures ExportsNow(job, host) ==> w.selected == [job.objects[job.index].id]
  {
    var o := job.objects[job.index];
    if ExportsNow(job, host) then ExportMesh(o, DestinationOf(o, host, job.assetPath, job.scenePath), job, host, world)
    else world
  }

  /** `_finish` (lines 225-250): restore the selection, then write the manifest. */
  function Finish(job: Job, host: Host, world: World): (r: (World, Status))
    ensures r.0.selected == job.originalSelected && r.0.active == job.originalActive
    ensures r.1 == Cancelled <==> !host.canWrite(Join(job.scenePath, "selected_meshes.json"))
    ensures r.1 != Cancelled ==> r.1 == Finished
    ensures r.1 == Finished ==>
              && Join(job.scenePath, "selected_meshes.json") in r.0.fs
              && r.0.fs[Join(job.scenePath, "selected_meshes.json")] == Manifest(job.manifest)
              && r.0.reports == world.reports + [Done(job.total, |job.exported|)]
    ensures r.1 == Cancelled ==> r.0.fs == world.fs
  {
    var restored := world.(selected := job.originalSelected, active := job.originalActive);
    var path := Join(job.scenePath, "selected_meshes.json");
    if host.canWrite(path) then
      (restored.(fs := world.fs[path := Manifest(job.manifest)],
                 reports := world.reports + [Done(job.total, |job.exported|)]), Finished)
    else
      (restored.(reports := world.reports + [Error("Failed to write JSON")]), Cancelled)
  }

  /** `modal` (lines 45-192): one event delivered to a running job. */
  function Tick(job: Job, event: Event, host: Host, world: World): (r: (State, World, Status))
    requires job.total == |job.objects|
    ensures event == OtherEvent ==> r == (Running(job), world, PassThrough)
    ensures event == Timer && job.index >= job.total ==> r.0 == Over && r.2 in {Finished, Cancelled}
    ensures event == Timer && job.index < job.total ==>
              && r.0.Running? && r.2 == PassThrough
              && r.0.job.index == job.index + 1
              && r.0.job.manifest == job.manifest + [RecordOf(job.objects[job.index], host, job.assetPath, job.scenePath)]
              && r.0.job.objects == job.objects
  {
    if event != Timer then (Running(job), world, PassThrough)
    else if job.index >= job.total then
      var f := Finish(job, host, world);
      (Over, f.0, f.1)
    else
      (Running(Advance(job, host)), ExportEffect(job, host, world), PassThrough)
  }

  // ---------------------------------------------------------------------
  // Invariants of a running job.
  // ---------------------------------------------------------------------

  /** The mesh names of the first `n` objects. */
  function NamesUpTo(objs: seq<ExportObject>, n: nat): set<string>
    requires n <= |objs|
  {
    set k | 0 <= k < n :: objs[k].data.name
  }

  /**
   * What holds of a job started by `Invoke` after any number of ticks: one
   * record per processed object in selection order, and each processed mesh
   * name exported exactly once.
   */
  ghost predicate Inv(job: Job, host: Host) {
    && job.total == |job.objects|
    && job.index <= job.total
    && job.scenePath != ""
    && ManifestSoFar(job, host)
    && ExportedSoFar(job)
  }

  /** One record per processed object, in selection order. */
  ghost predicate ManifestSoFar(job: Job, host: Host)
    requires job.index <= |job.objects|
  {
    && |job.manifest| == job.index
    && (forall k :: 0 <= k < job.index ==> job.manifest[k] == RecordOf(job.objects[k], host, job.assetPath, job.scenePath))
  }

  /** The processed objects' mesh names, each exported once. */
  ghost predicate ExportedSoFar(job: Job)
    requires job.index <= |job.objects|
  {
    && Distinct(job.exportOrder)
    && (forall m :: m in job.exportOrder <==> m in job.exported)
    && job.exported == NamesUpTo(job.objects, job.index)
  }

  /** A job fresh from `Invoke` satisfies the invariant. */
  lemma InvokeEstablishes(settings: Settings, selected: seq<ExportObject>, active: Option<nat>, host: Host, world: World)
    ensures var r := Invoke(settings, selected, active, host, world);
            r.0.Running? ==> Inv(r.0.job, host)
  {
  }

  lemma NamesUpToStep(objs: seq<ExportObject>, n: nat)
    requires n < |objs|
    ensures NamesUpTo(objs, n + 1) == NamesUpTo(objs, n) + {objs[n].data.name}
  {
  }

  /** Appending a new name keeps the export order free of repeats and in step with the set. */
  lemma OrderAppend(order: seq<string>, names: set<string>, m: string)
    requires Distinct(order) && (forall x :: x in order <==> x in names) && m !in names
    ensures Distinct(order + [m]) && forall x :: x in order + [m] <==> x in names + {m}
  {
    var o' := order + [m];
    assert forall k :: 0 <= k < |order| ==> o'[k] == order[k] && order[k] != m;
  }

  /** Appending the record of the object at `index` extends the manifest invariant by one. */
  lemma ManifestStep(job: Job, p: Job, host: Host)
    requires job.index < |job.objects| && ManifestSoFar(job, host)
    requires p.objects == job.objects && p.assetPath == job.assetPath && p.scenePath == job.scenePath
    requires p.index == job.index + 1
    requires p.manifest == job.manifest + [RecordOf(job.objects[job.index], host, job.assetPath, job.scenePath)]
    ensures ManifestSoFar(p, host)
  {
    assert forall k :: 0 <= k < job.index ==> p.manifest[k] == job.manifest[k];
  }

  lemma AdvanceManifest(job: Job, host: Host)
    requires job.index < |job.objects| && ManifestSoFar(job, host)
    ensures ManifestSoFar(Advance(job, host), host)
  {
    ManifestStep(job, Advance(job, host), host);
  }

  /** Marking the object at `index` exported exactly when its name is new extends the export invariant by one. */
  lemma ExportedStep(job: Job, p: Job, isNew: bool)
    requires job.index < |job.objects| && ExportedSoFar(job)
    requires p.objects == job.objects && p.index == job.index + 1
    requires isNew <==> job.objects[job.index].data.name !in job.exported
    requires isNew ==> p.exported == job.exported + {job.objects[job.index].data.name}
                       && p.exportOrder == job.exportOrder + [job.objects[job.index].data.name]
    requires !isNew ==> p.exported == job.exported && p.exportOrder == job.exportOrder
    ensures ExportedSoFar(p)
  {
    var m := job.objects[job.index].data.name;
    NamesUpToStep(job.objects, job.index);
    if isNew {
      OrderAppend(job.exportOrder, job.exported, m);
    }
  }

  lemma AdvanceExported(job: Job, host: Host)
    requires job.index < |job.objects| && ExportedSoFar(job) && job.scenePath != ""
    ensures ExportedSoFar(Advance(job, host))
  {
    var o := job.objects[job.index];
    assert DestinationOf(o, host, job.assetPath, job.scenePath).root != "";
    ExportedStep(job, Advance(job, host), ExportsNow(job, host));
  }

  /** Processing one object keeps the invariant. */
  lemma AdvancePreserves(job: Job, host: Host)
    requires Inv(job, host) && job.index < job.total
    ensures Inv(Advance(job, host), host)
  {
    AdvanceManifest(job, host);
    AdvanceExported(job, host);
  }

  /** Every tick keeps the invariant of a running job. */
  lemma TickPreserves(job: Job, event: Event, host: Host, world: World)
    requires Inv(job, host)
    ensures var r := Tick(job, event, host, world);
            r.0.Running? ==> Inv(r.0.job, host)
  {
    if event == Timer && job.index < job.total {
      AdvancePreserves(job, host);
    }
  }

  /** Under the invariant, a mesh is exported now exactly when no earlier selected object has the same mesh name. */
  lemma ExportsNowFirst(job: Job, host: Host)
    requires Inv(job, host) && job.index < job.total
    ensures ExportsNow(job, host) <==>
            forall k :: 0 <= k < job.index ==> job.objects[k].data.name != job.objects[job.index].data.name
  {
    var o := job.objects[job.index];
    assert DestinationOf(o, host, job.assetPath, job.scenePath).root != "";
    if !ExportsNow(job, host) {
      var k :| 0 <= k < job.index && job.objects[k].data.name == o.data.name;
    }
  }

  /** Each tick exports at most one glTF, and never the same mesh twice. */
  lemma ExportedAtMostOnce(job: Job, host: Host)
    requires Inv(job, host)
    ensures |job.exported| <= job.index <= job.total
    ensures |job.exportOrder| == |job.exported|
  {
    ExportOrderCard(job.exportOrder, job.exported);
    NamesUpToCard(job.objects, job.index);
  }

  lemma {:induction false} ExportOrderCard(order: seq<string>, names: set<string>)
    requires Distinct(order) && forall m :: m in order <==> m in names
    ensures |order| == |names|
    decreases |order|
  {
    if order != [] {
      var m := order[|order| - 1];
      var prefix := order[..|order| - 1];
      assert forall k :: 0 <= k < |prefix| ==> prefix[k] == order[k];
      assert m !in prefix;
      ExportOrderCard(prefix, names - {m});
      assert forall x :: x in prefix <==> x in names - {m} by {
        forall x ensures x in prefix <==> x in names - {m} {
          if x in names - {m} {
            assert x in order;
            var k :| 0 <= k < |order| && order[k] == x;
            assert k != |order| - 1;
            assert prefix[k] == x;
          }
        }
      }
    }
  }

  lemma {:induction false} NamesUpToCard(objs: seq<ExportObject>, n: nat)
    requires n <= |objs|
    ensures |NamesUpTo(objs, n)| <= n
    decreases n
  {
    if n > 0 {
      NamesUpToCard(objs, n - 1);
      NamesUpToStep(objs, n - 1);
      var before := NamesUpTo(objs, n - 1);
      var m := objs[n - 1].data.name;
      if m in before {
        assert before + {m} == before;
      } else {
        assert |before + {m}| == |before| + 1;
      }
    }
  }

  // ---------------------------------------------------------------------
  // A whole run: TIMER ticks until the job is over.
  // ---------------------------------------------------------------------

  /** The job driven by TIMER events until it finishes; other events in between change nothing (`Tick`). */
  function Run(job: Job, host: Host, world: World): (r: (World, Status))
    requires job.total == |job.objects| && job.index <= job.total
    ensures r.0.selected == job.originalSelected && r.0.active == job.originalActive
    ensures r.1 == Finished || r.1 == Cancelled
    decreases job.total - job.index
  {
    var t := Tick(job, Timer, host, world);
    if t.0.Running? then Run(t.0.job, host, t.1) else (t.1, t.2)
  }

  /** The manifest a complete run writes: one record per selected mesh object, in selection order. */
  function AllRecords(job: Job, host: Host): (rs: seq<ManifestRecord>)
    ensures |rs| == |job.objects|
    ensures forall k :: 0 <= k < |rs| ==> rs[k] == RecordOf(job.objects[k], host, job.assetPath, job.scenePath)
  {
    seq(|job.objects|, k requires 0 <= k < |job.objects| => RecordOf(job.objects[k], host, job.assetPath, job.scenePath))
  }

  /** What a finished run leaves behind; reads only the fields of `job` a tick never changes. */
  ghost predicate RunOutcome(job: Job, host: Host, w: World, status: Status)
    requires job.total == |job.objects|
  {
    var path := Join(job.scenePath, "selected_meshes.json");
    && w.selected == job.originalSelected && w.active == job.originalActive
    && (status == Cancelled <==> !host.canWrite(path))
    && (status != Cancelled ==> status == Finished)
    && (status == Finished ==>
          && path in w.fs && w.fs[path] == Manifest(AllRecords(job, host))
          && |w.reports| > 0 && w.reports[|w.reports| - 1] == Done(job.total, |NamesUpTo(job.objects, job.total)|))
  }

  /** The last TIMER tick finishes the job with everything processed. */
  lemma FinishOutcome(job: Job, host: Host, world: World)
    requires Inv(job, host) && job.index >= job.total
    ensures RunOutcome(job, host, Run(job, host, world).0, Run(job, host, world).1)
  {
    assert job.manifest == AllRecords(job, host);
  }

  /** A TIMER tick on an unfinished job leaves the rest of the run to the advanced job. */
  lemma RunStep(job: Job, host: Host, world: World)
    requires Inv(job, host) && job.index < job.total
    ensures Run(job, host, world) == Run(Advance(job, host), host, ExportEffect(job, host, world))
  {
  }

  /**
   * Lines 48-49 and 225-250 over a whole run: the selection ends as it began,
   * the job is cancelled only when the manifest cannot be written, and
   * otherwise the manifest lists every instance and the report counts each
   * distinct mesh once.
   */
  lemma {:induction false} RunResult(job: Job, host: Host, world: World)
    requires Inv(job, host)
    ensures RunOutcome(job, host, Run(job, host, world).0, Run(job, host, world).1)
    decreases job.total - job.index
  {
    if job.index < job.total {
      var next := Advance(job, host);
      AdvancePreserves(job, host);
      RunStep(job, host, world);
      RunResult(next, host, ExportEffect(job, host, world));
      assert AllRecords(next, host) == AllRecords(job, host);
    } else {
      FinishOutcome(job, host, world);
    }
  }
}

=== FILE: fepbr.dfy ===
/**
 * `ImportGLTFFiles.replace_with_fepbr`: replace a material's Principled BSDF
 * node with a group node using the template's FePBR node tree, carrying the
 * Principled node's incoming links over to the group's inputs.
 */
module FePBR {
  import opened Base
  import opened Strings
  import opened Shading

  /** Principled input name -> FePBR input name, in the order the rewrite visits them. */
  const InputMap: seq<(string, string)> := [
    ("Base Color", "Albedo Map"),
    ("Metallic", "Metallic"),
    ("Roughness", "Roughness"),
    ("Normal", "Normal Map"),
    ("Emission", "Emission"),
    ("Alpha", "Alpha Map")
  ]

  /** Width given to the new group node. */
  const GroupWidth: real := 300.0

  predicate IsPrincipled(k: NodeKind) { k.Principled? }
  predicate IsMaterialOutput(k: NodeKind) { k.MaterialOutput? }
  predicate IsGltfOutput(k: NodeKind) { k.Group? && Contains(k.tree.name, "glTF Material Output") }
  predicate IsFePBRGroup(k: NodeKind) { k.Group? && Contains(k.tree.name, "FePBR") }

  /** Some node of `g` has a kind satisfying `p`. */
  predicate HasKind(g: Graph, p: NodeKind -> bool) {
    exists i :: 0 <= i < |g.order| && Matches(g, g.order[i], p)
  }

  datatype SkipReason = NodesDisabled | NoPrincipled | NoFePBRGroup

  /**
   * What one call does to the material: rewrites its tree, returns early
   * leaving it untouched, or raises (reading the node tree of a missing template).
   */
  datatype Outcome = Rewritten(graph: Graph) | Skipped(reason: SkipReason) | Raised

  /** The material's tree after the call returned normally. */
  function TreeAfter(m: Material, o: Outcome): Graph {
    if o.Rewritten? then o.graph else m.tree
  }

  /**
   * The socket a new link into the FePBR input takes its value from: the socket
   * feeding the Principled input `name`, except that a "Normal" input fed by a
   * NORMAL_MAP node whose "Color" input is linked is fed from that Color link instead.
   */
  function Upstream(g: Graph, name: string, from: Socket): (r: Socket)
    ensures name != "Normal" ==> r == from
    ensures r != from ==> from.node in g.nodes && g.nodes[from.node].kind.NormalMap?
                          && Socket(from.node, "Color") in g.links && r == g.links[Socket(from.node, "Color")]
    ensures name == "Normal" && from.node in g.nodes && g.nodes[from.node].kind.NormalMap?
            && "Color" in g.nodes[from.node].inputs && Socket(from.node, "Color") in g.links
            ==> r == g.links[Socket(from.node, "Color")]
    ensures LinksWellFormed(g) && HasOutput(g, from) ==> HasOutput(g, r)
  {
    if name == "Normal" && from.node in g.nodes && g.nodes[from.node].kind.NormalMap?
       && "Color" in g.nodes[from.node].inputs && Socket(from.node, "Color") in g.links
    then g.links[Socket(from.node, "Color")]
    else from
  }

  /** Entry `e` of the input map is carried over: both sockets exist and the Principled one is linked. */
  predicate Applies(g: Graph, p: NodeId, f: NodeId, e: (string, string)) {
    && p in g.nodes && f in g.nodes
    && e.0 in g.nodes[p].inputs && e.1 in g.nodes[f].inputs
    && Socket(p, e.0) in g.links
  }

  /** `links.new(from, to)`: an input keeps only its newest incoming link. */
  function Connect(g: Graph, from: Socket, to: Socket): Graph {
    g.(links := g.links[to := from])
  }

  function LinkEntry(g: Graph, p: NodeId, f: NodeId, e: (string, string)): Graph {
    if Applies(g, p, f, e) then Connect(g, Upstream(g, e.0, g.links[Socket(p, e.0)]), Socket(f, e.1))
    else g
  }

  function LinkEntries(g: Graph, p: NodeId, f: NodeId, entries: seq<(string, string)>): Graph
    decreases |entries|
  {
    if entries == [] then g else LinkEntries(LinkEntry(g, p, f, entries[0]), p, f, entries[1..])
  }

  /** The glTF output group's linked "Occlusion" input is forwarded into FePBR's "AO". */
  predicate ForwardsOcclusion(g: Graph, go: Option<NodeId>, f: NodeId) {
    && go.Some? && go.value in g.nodes && "Occlusion" in g.nodes[go.value].inputs
    && Socket(go.value, "Occlusion") in g.links
    && f in g.nodes && "AO" in g.nodes[f].inputs
  }

  function LinkOcclusion(g: Graph, go: Option<NodeId>, f: NodeId): Graph {
    if ForwardsOcclusion(g, go, f) then Connect(g, g.links[Socket(go.value, "Occlusion")], Socket(f, "AO"))
    else g
  }

  /** The first output socket of type SHADER. */
  function FirstShader(outs: seq<OutputSocket>): (r: Option<OutputSocket>)
    ensures r.Some? ==> r.value in outs && r.value.stype == Shader
    ensures r.None? ==> forall i :: 0 <= i < |outs| ==> outs[i].stype != Shader
    decreases |outs|
  {
    if outs == [] then None
    else if outs[0].stype == Shader then Some(outs[0])
    else FirstShader(outs[1..])
  }

  /** The material output has a "Surface" input and the group node a SHADER output. */
  predicate FeedsSurface(g: Graph, mo: Option<NodeId>, f: NodeId) {
    && mo.Some? && mo.value in g.nodes && "Surface" in g.nodes[mo.value].inputs
    && f in g.nodes && FirstShader(g.nodes[f].outputs).Some?
  }

  function LinkSurface(g: Graph, mo: Option<NodeId>, f: NodeId): Graph {
    if FeedsSurface(g, mo, f)
    then Connect(g, Socket(f, FirstShader(g.nodes[f].outputs).value.name), Socket(mo.value, "Surface"))
    else g
  }

  /** `xs` with every occurrence of `x` removed. */
  function Without(xs: seq<NodeId>, x: NodeId): (r: seq<NodeId>)
    ensures forall y :: y in r <==> y in xs && y != x
    ensures Distinct(xs) ==> Distinct(r)
    ensures Distinct(xs) && x in xs ==> |r| == |xs| - 1
    ensures x !in xs ==> r == xs
    decreases |xs|
  {
    if xs == [] then []
    else if xs[0] == x then Without(xs[1..], x)
    else
      var rest := Without(xs[1..], x);
      assert Distinct(xs) ==> forall k :: 0 <= k < |xs| - 1 ==> xs[1..][k] != xs[0];
      assert Distinct(xs) ==> xs[0] !in rest;
      var r := [xs[0]] + rest;
      assert forall j :: 1 <= j < |r| ==> r[j] == rest[j - 1];
      r
  }

  /** `nodes.remove(n)`: the node goes, and with it every link touching it. */
  function RemoveNode(g: Graph, n: NodeId): (r: Graph)
    ensures r.nodes.Keys == g.nodes.Keys - {n} && forall id :: id in r.nodes ==> r.nodes[id] == g.nodes[id]
    ensures forall id :: id in r.order <==> id in g.order && id != n
    ensures forall s :: s in r.links <==> s in g.links && s.node != n && g.links[s].node != n
    ensures forall s :: s in r.links ==> r.links[s] == g.links[s]
  {
    Graph(Without(g.order, n), g.nodes - {n},
          map s | s in g.links && s.node != n && g.links[s].node != n :: g.links[s])
  }

  /** The group node created for `tree` in place of node `p`. */
  function GroupNode(g: Graph, p: NodeId, tree: NodeTree): Node
    requires p in g.nodes
  {
    Node(Group(tree), tree.inputs, tree.outputs, g.nodes[p].location, GroupWidth)
  }

  /** `nodes.new('ShaderNodeGroup')`: appended to the iteration order under a fresh identifier. */
  function AddGroup(g: Graph, p: NodeId, tree: NodeTree): Graph
    requires p in g.nodes
  {
    var f := FreshId(g.order);
    Graph(g.order + [f], g.nodes[f := GroupNode(g, p, tree)], g.links)
  }

  /** Lines 58-114 once the nodes are chosen: add the group, rewire, remove Principled. */
  function Rewire(g: Graph, p: NodeId, tree: NodeTree, mo: Option<NodeId>, go: Option<NodeId>): Graph
    requires p in g.nodes
  {
    RewireWith(InputMap, g, p, tree, mo, go)
  }

  function RewireWith(entries: seq<(string, string)>, g: Graph, p: NodeId, tree: NodeTree,
                      mo: Option<NodeId>, go: Option<NodeId>): Graph
    requires p in g.nodes
  {
    var f := FreshId(g.order);
    var g1 := AddGroup(g, p, tree);
    var g2 := LinkEntries(g1, p, f, entries);
    var g3 := LinkOcclusion(g2, go, f);
    var g4 := LinkSurface(g3, mo, f);
    RemoveNode(g4, p)
  }

  function IdAt(g: Graph, i: Option<nat>): Option<NodeId>
    requires i.Some? ==> i.value < |g.order|
  {
    if i.Some? then Some(g.order[i.value]) else None
  }

  /** The Principled node the rewrite replaces: the last one in iteration order. */
  function PrincipledOf(g: Graph): NodeId
    requires HasKind(g, IsPrincipled)
  {
    g.order[FindLast(g, IsPrincipled).value]
  }

  /** The FePBR tree of the template: that of its first group whose tree name contains "FePBR". */
  function FePBRTreeOf(t: Graph): (tree: NodeTree)
    requires HasKind(t, IsFePBRGroup)
    ensures exists i :: 0 <= i < |t.order| && Matches(t, t.order[i], IsFePBRGroup) && t.nodes[t.order[i]].kind.tree == tree
                        && forall j :: 0 <= j < i ==> !Matches(t, t.order[j], IsFePBRGroup)
    ensures Contains(tree.name, "FePBR")
  {
    var i := FindFirst(t, IsFePBRGroup).value;
    t.nodes[t.order[i]].kind.tree
  }

  /** The first material output node. */
  function MaterialOutputOf(g: Graph): Option<NodeId> {
    IdAt(g, FindFirst(g, IsMaterialOutput))
  }

  /** The last group node whose tree name contains "glTF Material Output". */
  function GltfOutputOf(g: Graph): Option<NodeId> {
    IdAt(g, FindLast(g, IsGltfOutput))
  }

  /** `replace_with_fepbr(material, template_material)`. */
  function Replace(m: Material, template: Option<Material>): (r: Outcome)
    ensures r.Skipped? <==>
      || !m.useNodes
      || !HasKind(m.tree, IsPrincipled)
      || (template.Some? && !HasKind(template.value.tree, IsFePBRGroup))
    ensures r.Raised? <==> m.useNodes && HasKind(m.tree, IsPrincipled) && template.None?
    ensures r.Skipped? ==> TreeAfter(m, r) == m.tree
    ensures r.Skipped? && !m.useNodes ==> r.reason == NodesDisabled
    ensures r.Skipped? && m.useNodes && !HasKind(m.tree, IsPrincipled) ==> r.reason == NoPrincipled
    ensures r.Skipped? && m.useNodes && HasKind(m.tree, IsPrincipled) ==> r.reason == NoFePBRGroup
  {
    if !m.useNodes then Skipped(NodesDisabled)
    else
      var g := m.tree;
      var pr := FindLast(g, IsPrincipled);
      if pr.None? then Skipped(NoPrincipled)
      else if template.None? then Raised
      else
        var ft := FindFirst(template.value.tree, IsFePBRGroup);
        if ft.None? then Skipped(NoFePBRGroup)
        else Rewritten(Rewire(g, PrincipledOf(g), FePBRTreeOf(template.value.tree),
                              MaterialOutputOf(g), GltfOutputOf(g)))
  }

  // ---------------------------------------------------------------------------
  // What a rewrite does to the graph
  // ---------------------------------------------------------------------------

  /** No link of `g` runs out of node `f`. */
  predicate SourcesAvoid(g: Graph, f: NodeId) {
    forall s :: s in g.links ==> g.links[s].node != f
  }

  /** Some entry of `entries` targets the FePBR input `n`. */
  predicate Targets(entries: seq<(string, string)>, n: string) {
    exists k :: 0 <= k < |entries| && entries[k].1 == n
  }

  predicate DistinctTargets(entries: seq<(string, string)>) {
    forall i, j :: 0 <= i < j < |entries| ==> entries[i].1 != entries[j].1
  }

  /** Graphs with the same nodes agreeing on every link into a node other than `f`. */
  ghost predicate AgreeOffNode(g: Graph, h: Graph, f: NodeId) {
    && g.nodes == h.nodes
    && (forall s: Socket :: s.node != f ==> (s in g.links <==> s in h.links))
    && (forall s: Socket :: s.node != f && s in g.links ==> g.links[s] == h.links[s])
  }

  lemma UpstreamAgrees(g: Graph, h: Graph, f: NodeId, name: string, from: Socket)
    requires AgreeOffNode(g, h, f) && from.node != f
    ensures Upstream(g, name, from) == Upstream(h, name, from)
  {
    var c := Socket(from.node, "Color");
    assert c.node != f;
  }

  /**
   * Linking the input-map entries one after another: each entry whose sockets
   * exist and whose Principled input is linked gets its own link into the
   * group, taken from the original graph; nothing else changes.
   */
  lemma {:induction false} LinkEntriesEffect(g: Graph, p: NodeId, f: NodeId, entries: seq<(string, string)>)
    requires p in g.nodes && f in g.nodes && p != f
    requires SourcesAvoid(g, f)
    requires DistinctTargets(entries)
    ensures var r := LinkEntries(g, p, f, entries);
      && r.order == g.order
      && SourcesAvoid(r, f)
      && AgreeOffNode(r, g, f)
      && (forall k :: 0 <= k < |entries| ==>
            (Socket(f, entries[k].1) in r.links <==> Socket(f, entries[k].1) in g.links || Applies(g, p, f, entries[k])))
      && (forall k :: 0 <= k < |entries| && Applies(g, p, f, entries[k]) ==>
            r.links[Socket(f, entries[k].1)] == Upstream(g, entries[k].0, g.links[Socket(p, entries[k].0)]))
      && (forall k :: 0 <= k < |entries| && !Applies(g, p, f, entries[k]) && Socket(f, entries[k].1) in g.links ==>
            r.links[Socket(f, entries[k].1)] == g.links[Socket(f, entries[k].1)])
      && (forall n :: !Targets(entries, n) ==>
            (Socket(f, n) in r.links <==> Socket(f, n) in g.links)
            && (Socket(f, n) in g.links ==> r.links[Socket(f, n)] == g.links[Socket(f, n)]))
    decreases |entries|
  {
    if entries != [] {
      var e := entries[0];
      var g1 := LinkEntry(g, p, f, e);
      var rest := entries[1..];
      assert DistinctTargets(rest) by {
        forall i, j | 0 <= i < j < |rest| ensures rest[i].1 != rest[j].1 {
          assert rest[i] == entries[i + 1] && rest[j] == entries[j + 1];
        }
      }
      assert AgreeOffNode(g1, g, f);
      if Applies(g, p, f, e) {
        var from := g.links[Socket(p, e.0)];
        assert from.node != f;
        var c := Socket(from.node, "Color");
        assert c.node != f;
        assert Upstream(g, e.0, from).node != f;
      }
      assert SourcesAvoid(g1, f);
      LinkEntriesEffect(g1, p, f, rest);
      var r := LinkEntries(g1, p, f, rest);
      assert r == LinkEntries(g, p, f, entries);
      forall k | 0 <= k < |rest|
        ensures Applies(g1, p, f, rest[k]) == Applies(g, p, f, rest[k])
        ensures Applies(g, p, f, rest[k]) ==>
          Upstream(g1, rest[k].0, g1.links[Socket(p, rest[k].0)]) == Upstream(g, rest[k].0, g.links[Socket(p, rest[k].0)])
        ensures rest[k].1 != e.1
      {
        assert rest[k] == entries[k + 1];
        if Applies(g, p, f, rest[k]) {
          var from := g.links[Socket(p, rest[k].0)];
          UpstreamAgrees(g1, g, f, rest[k].0, from);
        }
      }
      forall k | 0 <= k < |entries|
        ensures Socket(f, entries[k].1) in r.links <==> Socket(f, entries[k].1) in g.links || Applies(g, p, f, entries[k])
        ensures Applies(g, p, f, entries[k]) ==>
          r.links[Socket(f, entries[k].1)] == Upstream(g, entries[k].0, g.links[Socket(p, entries[k].0)])
        ensures !Applies(g, p, f, entries[k]) && Socket(f, entries[k].1) in g.links ==>
          r.links[Socket(f, entries[k].1)] == g.links[Socket(f, entries[k].1)]
      {
        if k == 0 {
          assert !Targets(rest, e.1) by {
            forall j | 0 <= j < |rest| ensures rest[j].1 != e.1 {
              assert rest[j] == entries[j + 1];
            }
          }
        } else {
          assert entries[k] == rest[k - 1];
        }
      }
      forall n | !Targets(entries, n)
        ensures Socket(f, n) in r.links <==> Socket(f, n) in g.links
        ensures Socket(f, n) in g.links ==> r.links[Socket(f, n)] == g.links[Socket(f, n)]
      {
        assert e.1 != n;
        assert !Targets(rest, n) by {
          forall j | 0 <= j < |rest| ensures rest[j].1 != n {
            assert rest[j] == entries[j + 1];
          }
        }
      }
    }
  }

  /** Input-map entry `e` is carried over by a rewrite of `g` replacing `p` with a group using `tree`. */
  predicate EntryApplies(g: Graph, p: NodeId, tree: NodeTree, e: (string, string))
    requires p in g.nodes
  {
    e.0 in g.nodes[p].inputs && e.1 in tree.inputs && Socket(p, e.0) in g.links
  }

  /** The socket the carried-over link for entry `e` comes from. */
  function EntrySource(g: Graph, p: NodeId, e: (string, string)): Socket
    requires Socket(p, e.0) in g.links
  {
    Upstream(g, e.0, g.links[Socket(p, e.0)])
  }

  /** The glTF output's "Occlusion" input is linked and the group has an "AO" input. */
  predicate OcclusionApplies(g: Graph, go: Option<NodeId>, tree: NodeTree) {
    && go.Some? && go.value in g.nodes && "Occlusion" in g.nodes[go.value].inputs
    && Socket(go.value, "Occlusion") in g.links && "AO" in tree.inputs
  }

  /** The material output has a "Surface" input and the group a SHADER output. */
  predicate SurfaceApplies(g: Graph, mo: Option<NodeId>, tree: NodeTree) {
    mo.Some? && mo.value in g.nodes && "Surface" in g.nodes[mo.value].inputs && FirstShader(tree.outputs).Some?
  }

  lemma InputMapTargetsDistinct()
    ensures DistinctTargets(InputMap)
    ensures !Targets(InputMap, "AO")
  {
  }

  lemma FreshIdNotInGraph(g: Graph)
    requires Valid(g)
    ensures FreshId(g.order) !in g.nodes
    ensures SourcesAvoid(g, FreshId(g.order))
    ensures forall s :: s in g.links ==> s.node != FreshId(g.order)
  {
    var f := FreshId(g.order);
    forall id | id in g.nodes ensures id != f {
      assert id in g.order;
    }
  }

  /** The freshly added group node: a new identifier, the tree's sockets, no links yet. */
  lemma AddGroupFacts(g: Graph, p: NodeId, tree: NodeTree)
    requires Valid(g) && p in g.nodes
    ensures var f := FreshId(g.order); var g1 := AddGroup(g, p, tree);
      && f !in g.nodes
      && g1.links == g.links
      && g1.nodes == g.nodes[f := GroupNode(g, p, tree)]
      && g1.nodes[f].inputs == tree.inputs && g1.nodes[f].outputs == tree.outputs
      && SourcesAvoid(g1, f)
      && (forall s :: s in g1.links ==> s.node != f)
  {
    FreshIdNotInGraph(g);
  }

  /** `g1` is `g` plus a node `f` with the tree's inputs, nothing linked to or from it. */
  ghost predicate AddsFresh(g: Graph, g1: Graph, p: NodeId, f: NodeId, tree: NodeTree) {
    && p in g.nodes && p != f && f !in g.nodes
    && g1.links == g.links
    && g1.nodes.Keys == g.nodes.Keys + {f}
    && (forall n :: n in g.nodes ==> g1.nodes[n] == g.nodes[n])
    && g1.nodes[f].inputs == tree.inputs
    && SourcesAvoid(g, f)
    && (forall s :: s in g.links ==> s.node != f)
  }

  lemma AppliesOnFresh(entries: seq<(string, string)>, g: Graph, g1: Graph, p: NodeId, f: NodeId, tree: NodeTree, k: nat)
    requires AddsFresh(g, g1, p, f, tree) && k < |entries|
    ensures Applies(g1, p, f, entries[k]) == EntryApplies(g, p, tree, entries[k])
    ensures Applies(g1, p, f, entries[k]) ==>
      Upstream(g1, entries[k].0, g1.links[Socket(p, entries[k].0)]) == EntrySource(g, p, entries[k])
  {
    if Applies(g1, p, f, entries[k]) {
      var from := g.links[Socket(p, entries[k].0)];
      assert from.node != f;
    }
  }

  /** What linking the entries leaves behind, stated against the original graph `g`. */
  ghost predicate EntriesLinked(entries: seq<(string, string)>, g: Graph, g2: Graph, p: NodeId, f: NodeId, tree: NodeTree)
    requires p in g.nodes
  {
    && p != f && f !in g.nodes
    && g2.nodes.Keys == g.nodes.Keys + {f}
    && (forall n :: n in g.nodes ==> g2.nodes[n] == g.nodes[n])
    && g2.nodes[f].inputs == tree.inputs && g2.nodes[f].outputs == tree.outputs
    && (forall s: Socket :: s.node != f ==> (s in g2.links <==> s in g.links))
    && (forall s: Socket :: s.node != f && s in g.links ==> g2.links[s] == g.links[s])
    && (forall k :: 0 <= k < |entries| ==>
          (Socket(f, entries[k].1) in g2.links <==> EntryApplies(g, p, tree, entries[k])))
    && (forall k :: 0 <= k < |entries| && EntryApplies(g, p, tree, entries[k]) ==>
          g2.links[Socket(f, entries[k].1)] == EntrySource(g, p, entries[k]))
    && (forall n :: !Targets(entries, n) ==> Socket(f, n) !in g2.links)
  }

  lemma EntriesOnFresh(entries: seq<(string, string)>, g: Graph, g1: Graph, p: NodeId, f: NodeId, tree: NodeTree)
    requires AddsFresh(g, g1, p, f, tree) && DistinctTargets(entries)
    requires g1.nodes[f].outputs == tree.outputs
    ensures EntriesLinked(entries, g, LinkEntries(g1, p, f, entries), p, f, tree)
  {
    LinkEntriesEffect(g1, p, f, entries);
    forall k | 0 <= k < |entries|
      ensures Applies(g1, p, f, entries[k]) == EntryApplies(g, p, tree, entries[k])
      ensures Applies(g1, p, f, entries[k]) ==>
        Upstream(g1, entries[k].0, g1.links[Socket(p, entries[k].0)]) == EntrySource(g, p, entries[k])
    {
      AppliesOnFresh(entries, g, g1, p, f, tree, k);
    }
  }

  /** What the occlusion forward and the Surface link leave behind, against the original graph. */
  ghost predicate OutputsLinked(entries: seq<(string, string)>, g: Graph, g4: Graph, p: NodeId, f: NodeId,
                                tree: NodeTree, mo: Option<NodeId>, go: Option<NodeId>)
    requires p in g.nodes
  {
    var surf := SurfaceApplies(g, mo, tree);
    && p != f && f !in g.nodes
    && g4.nodes.Keys == g.nodes.Keys + {f}
    && (forall s: Socket :: s.node != f && !(surf && s == Socket(mo.value, "Surface")) ==>
          (s in g4.links <==> s in g.links) && (s in g.links ==> g4.links[s] == g.links[s]))
    && (surf ==> Socket(mo.value, "Surface") in g4.links
                 && g4.links[Socket(mo.value, "Surface")] == Socket(f, FirstShader(tree.outputs).value.name))
    && (forall k :: 0 <= k < |entries| ==>
          (Socket(f, entries[k].1) in g4.links <==> EntryApplies(g, p, tree, entries[k])))
    && (forall k :: 0 <= k < |entries| && EntryApplies(g, p, tree, entries[k]) ==>
          g4.links[Socket(f, entries[k].1)] == EntrySource(g, p, entries[k]))
    && (Socket(f, "AO") in g4.links <==> OcclusionApplies(g, go, tree))
    && (OcclusionApplies(g, go, tree) ==> g4.links[Socket(f, "AO")] == g.links[Socket(go.value, "Occlusion")])
    && (forall n :: !Targets(entries, n) && n != "AO" ==> Socket(f, n) !in g4.links)
  }

  /** What the occlusion forward leaves behind, against the original graph. */
  ghost predicate OcclusionLinked(entries: seq<(string, string)>, g: Graph, g3: Graph, p: NodeId, f: NodeId,
                                  tree: NodeTree, go: Option<NodeId>)
    requires p in g.nodes
  {
    && p != f && f !in g.nodes
    && g3.nodes.Keys == g.nodes.Keys + {f}
    && (forall n :: n in g.nodes ==> g3.nodes[n] == g.nodes[n])
    && g3.nodes[f].outputs == tree.outputs
    && (forall s: Socket :: s.node != f ==> (s in g3.links <==> s in g.links))
    && (forall s: Socket :: s.node != f && s in g.links ==> g3.links[s] == g.links[s])
    && (forall k :: 0 <= k < |entries| ==>
          (Socket(f, entries[k].1) in g3.links <==> EntryApplies(g, p, tree, entries[k])))
    && (forall k :: 0 <= k < |entries| && EntryApplies(g, p, tree, entries[k]) ==>
          g3.links[Socket(f, entries[k].1)] == EntrySource(g, p, entries[k]))
    && (Socket(f, "AO") in g3.links <==> OcclusionApplies(g, go, tree))
    && (OcclusionApplies(g, go, tree) ==> g3.links[Socket(f, "AO")] == g.links[Socket(go.value, "Occlusion")])
    && (forall n :: !Targets(entries, n) && n != "AO" ==> Socket(f, n) !in g3.links)
  }

  lemma OcclusionOnLinked(entries: seq<(string, string)>, g: Graph, g2: Graph, p: NodeId, f: NodeId,
                          tree: NodeTree, go: Option<NodeId>)
    requires p in g.nodes && EntriesLinked(entries, g, g2, p, f, tree) && !Targets(entries, "AO")
    requires go.Some? ==> go.value in g.nodes
    ensures OcclusionLinked(entries, g, LinkOcclusion(g2, go, f), p, f, tree, go)
  {
    assert ForwardsOcclusion(g2, go, f) == OcclusionApplies(g, go, tree) by {
      if go.Some? && go.value in g.nodes {
        assert go.value != f;
        assert Socket(go.value, "Occlusion").node != f;
      }
    }
  }

  lemma SurfaceOnLinked(entries: seq<(string, string)>, g: Graph, g3: Graph, p: NodeId, f: NodeId,
                        tree: NodeTree, mo: Option<NodeId>, go: Option<NodeId>)
    requires p in g.nodes && OcclusionLinked(entries, g, g3, p, f, tree, go)
    requires mo.Some? ==> mo.value in g.nodes
    ensures OutputsLinked(entries, g, LinkSurface(g3, mo, f), p, f, tree, mo, go)
  {
    assert FeedsSurface(g3, mo, f) == SurfaceApplies(g, mo, tree) by {
      if mo.Some? && mo.value in g.nodes {
        assert mo.value != f;
      }
    }
    if SurfaceApplies(g, mo, tree) {
      assert mo.value != f;
    }
  }

  lemma OutputsOnLinked(entries: seq<(string, string)>, g: Graph, g2: Graph, p: NodeId, f: NodeId,
                        tree: NodeTree, mo: Option<NodeId>, go: Option<NodeId>)
    requires p in g.nodes && EntriesLinked(entries, g, g2, p, f, tree) && !Targets(entries, "AO")
    requires (mo.Some? ==> mo.value in g.nodes) && (go.Some? ==> go.value in g.nodes)
    ensures OutputsLinked(entries, g, LinkSurface(LinkOcclusion(g2, go, f), mo, f), p, f, tree, mo, go)
  {
    OcclusionOnLinked(entries, g, g2, p, f, tree, go);
    SurfaceOnLinked(entries, g, LinkOcclusion(g2, go, f), p, f, tree, mo, go);
  }

  /**
   * The links of `r`, a rewrite of `g` in which group node `f` replaced `p`,
   * against those of `g`: one link per applicable entry (through the
   * NORMAL_MAP bypass), the occlusion forward, the group's shader output into
   * "Surface", every other link untouched unless it touched `p`.
   */
  ghost predicate LinksAfter(entries: seq<(string, string)>, g: Graph, r: Graph, p: NodeId, f: NodeId,
                             tree: NodeTree, mo: Option<NodeId>, go: Option<NodeId>)
    requires p in g.nodes
  {
    && (forall k :: 0 <= k < |entries| ==>
          (Socket(f, entries[k].1) in r.links <==>
             EntryApplies(g, p, tree, entries[k]) && EntrySource(g, p, entries[k]).node != p))
    && (forall k :: 0 <= k < |entries| && Socket(f, entries[k].1) in r.links ==>
          r.links[Socket(f, entries[k].1)] == EntrySource(g, p, entries[k]))
    && (Socket(f, "AO") in r.links <==>
          OcclusionApplies(g, go, tree) && g.links[Socket(go.value, "Occlusion")].node != p)
    && (Socket(f, "AO") in r.links ==> r.links[Socket(f, "AO")] == g.links[Socket(go.value, "Occlusion")])
    && (SurfaceApplies(g, mo, tree) ==>
          Socket(mo.value, "Surface") in r.links
          && r.links[Socket(mo.value, "Surface")] == Socket(f, FirstShader(tree.outputs).value.name))
    && (forall s ::
          (s in g.links && s.node != p && g.links[s].node != p
           && !(SurfaceApplies(g, mo, tree) && s == Socket(mo.value, "Surface"))) ==>
          s in r.links && r.links[s] == g.links[s])
    && (forall s :: s in r.links ==>
          || (s in g.links && r.links[s] == g.links[s])
          || s.node == f
          || (SurfaceApplies(g, mo, tree) && s == Socket(mo.value, "Surface")))
    && (forall n :: Socket(f, n) in r.links ==> n == "AO" || Targets(entries, n))
    && (forall s :: s in r.links ==> s.node != p && r.links[s].node != p)
  }

  /** Removing the Principled node from a graph in the state `OutputsLinked` describes. */
  lemma RemovalOnLinked(entries: seq<(string, string)>, g: Graph, g4: Graph, p: NodeId, f: NodeId,
                        tree: NodeTree, mo: Option<NodeId>, go: Option<NodeId>)
    requires Valid(g) && p in g.nodes && (mo.Some? ==> mo.value != p)
    requires OutputsLinked(entries, g, g4, p, f, tree, mo, go)
    ensures LinksAfter(entries, g, RemoveNode(g4, p), p, f, tree, mo, go)
  {
    var r := RemoveNode(g4, p);
    forall s | s in g.links ensures s.node != f {
      assert s.node in g.nodes;
    }
  }

  /**
   * The links of a rewritten graph, against those of the original: one link
   * per applicable input-map entry (through the NORMAL_MAP bypass), the
   * occlusion forward, the group's shader output into "Surface", every other
   * link untouched unless it touched the removed Principled node.
   */
  lemma RewireLinks(g: Graph, p: NodeId, tree: NodeTree, mo: Option<NodeId>, go: Option<NodeId>)
    requires Valid(g) && p in g.nodes
    requires mo.Some? ==> mo.value in g.nodes && mo.value != p
    requires go.Some? ==> go.value in g.nodes
    ensures LinksAfter(InputMap, g, Rewire(g, p, tree, mo, go), p, FreshId(g.order), tree, mo, go)
  {
    var f := FreshId(g.order);
    var g1 := AddGroup(g, p, tree);
    AddGroupFacts(g, p, tree);
    assert AddsFresh(g, g1, p, f, tree);
    InputMapTargetsDistinct();
    EntriesOnFresh(InputMap, g, g1, p, f, tree);
    var g2 := LinkEntries(g1, p, f, InputMap);
    OutputsOnLinked(InputMap, g, g2, p, f, tree, mo, go);
    var g4 := LinkSurface(LinkOcclusion(g2, go, f), mo, f);
    RemovalOnLinked(InputMap, g, g4, p, f, tree, mo, go);
  }

  // ---------------------------------------------------------------------------
  // The rewritten graph is well formed
  // ---------------------------------------------------------------------------

  ghost predicate LinksWellFormed(g: Graph) {
    forall s :: s in g.links ==> HasInput(g, s) && HasOutput(g, g.links[s])
  }

  lemma UpstreamHasOutput(g: Graph, name: string, from: Socket)
    requires LinksWellFormed(g) && HasOutput(g, from)
    ensures HasOutput(g, Upstream(g, name, from))
  {
  }

  lemma ConnectWellFormed(g: Graph, from: Socket, to: Socket)
    requires LinksWellFormed(g) && HasOutput(g, from) && HasInput(g, to)
    ensures LinksWellFormed(Connect(g, from, to))
  {
  }

  lemma {:induction false} LinkEntriesWellFormed(g: Graph, p: NodeId, f: NodeId, entries: seq<(string, string)>)
    requires LinksWellFormed(g)
    ensures LinksWellFormed(LinkEntries(g, p, f, entries))
    ensures LinkEntries(g, p, f, entries).nodes == g.nodes
    ensures LinkEntries(g, p, f, entries).order == g.order
    decreases |entries|
  {
    if entries != [] {
      var e := entries[0];
      if Applies(g, p, f, e) {
        var from := g.links[Socket(p, e.0)];
        UpstreamHasOutput(g, e.0, from);
        ConnectWellFormed(g, Upstream(g, e.0, from), Socket(f, e.1));
      }
      LinkEntriesWellFormed(LinkEntry(g, p, f, e), p, f, entries[1..]);
    }
  }

  lemma FirstShaderIsOutput(g: Graph, f: NodeId)
    requires f in g.nodes && FirstShader(g.nodes[f].outputs).Some?
    ensures HasOutput(g, Socket(f, FirstShader(g.nodes[f].outputs).value.name))
  {
    var outs := g.nodes[f].outputs;
    var o := FirstShader(outs).value;
    var i :| 0 <= i < |outs| && outs[i] == o;
    assert OutputNames(outs)[i] == o.name;
  }

  lemma RemoveNodeWellFormed(g: Graph, n: NodeId)
    requires LinksWellFormed(g)
    ensures LinksWellFormed(RemoveNode(g, n))
  {
    var r := RemoveNode(g, n);
    forall s | s in r.links ensures HasInput(r, s) && HasOutput(r, r.links[s]) {
      assert HasInput(g, s) && HasOutput(g, g.links[s]);
    }
  }

  lemma RewireWithWellFormed(entries: seq<(string, string)>, g: Graph, p: NodeId, tree: NodeTree,
                             mo: Option<NodeId>, go: Option<NodeId>)
    requires Valid(g) && p in g.nodes
    ensures LinksWellFormed(RewireWith(entries, g, p, tree, mo, go))
  {
    var f := FreshId(g.order);
    FreshIdNotInGraph(g);
    var g1 := AddGroup(g, p, tree);
    assert LinksWellFormed(g1);
    LinkEntriesWellFormed(g1, p, f, entries);
    var g2 := LinkEntries(g1, p, f, entries);
    var g3 := LinkOcclusion(g2, go, f);
    if ForwardsOcclusion(g2, go, f) {
      ConnectWellFormed(g2, g2.links[Socket(go.value, "Occlusion")], Socket(f, "AO"));
    }
    var g4 := LinkSurface(g3, mo, f);
    if FeedsSurface(g3, mo, f) {
      FirstShaderIsOutput(g3, f);
      ConnectWellFormed(g3, Socket(f, FirstShader(g3.nodes[f].outputs).value.name), Socket(mo.value, "Surface"));
    }
    RemoveNodeWellFormed(g4, p);
  }

  lemma RewireWithNodes(entries: seq<(string, string)>, g: Graph, p: NodeId, tree: NodeTree,
                        mo: Option<NodeId>, go: Option<NodeId>)
    requires p in g.nodes && p in g.order
    ensures var r := RewireWith(entries, g, p, tree, mo, go); var f := FreshId(g.order);
      && r.order == Without(g.order, p) + [f]
      && r.nodes == (g.nodes - {p})[f := GroupNode(g, p, tree)]
  {
    var f := FreshId(g.order);
    assert p != f;
    var n := GroupNode(g, p, tree);
    var g1 := AddGroup(g, p, tree);
    var g4 := LinkSurface(LinkOcclusion(LinkEntries(g1, p, f, entries), go, f), mo, f);
    LinkingKeepsNodes(entries, g, p, tree, mo, go);
    RemoveAdded(g4, g, p, f, n);
  }

  /** Removing `p` after adding `f` is adding `f` after removing `p`. */
  lemma RemoveAdded(h: Graph, g: Graph, p: NodeId, f: NodeId, n: Node)
    requires p != f && h.nodes == g.nodes[f := n] && h.order == g.order + [f]
    ensures RemoveNode(h, p).nodes == (g.nodes - {p})[f := n]
    ensures RemoveNode(h, p).order == Without(g.order, p) + [f]
  {
    WithoutAppend(g.order, f, p);
    assert h.nodes - {p} == (g.nodes - {p})[f := n];
  }

  /** Linking leaves the nodes and their order as adding the group made them. */
  lemma LinkingKeepsNodes(entries: seq<(string, string)>, g: Graph, p: NodeId, tree: NodeTree,
                          mo: Option<NodeId>, go: Option<NodeId>)
    requires p in g.nodes
    ensures var f := FreshId(g.order); var g1 := AddGroup(g, p, tree);
            var g4 := LinkSurface(LinkOcclusion(LinkEntries(g1, p, f, entries), go, f), mo, f);
            g4.nodes == g1.nodes && g4.order == g1.order
  {
    LinkEntriesNodes(AddGroup(g, p, tree), p, FreshId(g.order), entries);
  }

  lemma {:induction false} LinkEntriesNodes(g: Graph, p: NodeId, f: NodeId, entries: seq<(string, string)>)
    ensures LinkEntries(g, p, f, entries).nodes == g.nodes
    ensures LinkEntries(g, p, f, entries).order == g.order
    decreases |entries|
  {
    if entries != [] {
      LinkEntriesNodes(LinkEntry(g, p, f, entries[0]), p, f, entries[1..]);
    }
  }

  lemma {:induction false} WithoutAppend(xs: seq<NodeId>, y: NodeId, x: NodeId)
    requires y != x
    ensures Without(xs + [y], x) == Without(xs, x) + [y]
    decreases |xs|
  {
    if xs != [] {
      assert (xs + [y])[1..] == xs[1..] + [y];
      WithoutAppend(xs[1..], y, x);
    } else {
      assert Without([y], x) == [y] + Without([], x);
    }
  }

  lemma ValidAfterSwap(g: Graph, r: Graph, p: NodeId, f: NodeId)
    requires Valid(g) && p in g.nodes && f !in g.nodes
    requires r.order == Without(g.order, p) + [f]
    requires r.nodes.Keys == (g.nodes.Keys - {p}) + {f}
    requires LinksWellFormed(r)
    ensures Valid(r)
  {
    var w := Without(g.order, p);
    assert f !in w;
    assert Distinct(r.order) by {
      forall i, j | 0 <= i < j < |r.order| ensures r.order[i] != r.order[j] {
        if j == |r.order| - 1 {
          assert r.order[i] == w[i];
        }
      }
    }
    forall i | 0 <= i < |r.order| ensures r.order[i] in r.nodes {
      if i < |w| {
        assert r.order[i] == w[i];
        assert w[i] in w;
        assert w[i] in g.order && w[i] != p;
        var j :| 0 <= j < |g.order| && g.order[j] == w[i];
        assert w[i] in g.nodes;
      }
    }
    forall id | id in r.nodes ensures id in r.order {
      if id != f {
        assert id in w;
      }
    }
  }

  lemma RewireWithValid(entries: seq<(string, string)>, g: Graph, p: NodeId, tree: NodeTree,
                        mo: Option<NodeId>, go: Option<NodeId>)
    requires Valid(g) && p in g.nodes
    ensures Valid(RewireWith(entries, g, p, tree, mo, go))
  {
    FreshIdNotInGraph(g);
    RewireWithWellFormed(entries, g, p, tree, mo, go);
    RewireWithNodes(entries, g, p, tree, mo, go);
    ValidAfterSwap(g, RewireWith(entries, g, p, tree, mo, go), p, FreshId(g.order));
  }

  lemma RewireWithCount(entries: seq<(string, string)>, g: Graph, p: NodeId, tree: NodeTree,
                        mo: Option<NodeId>, go: Option<NodeId>)
    requires Valid(g) && p in g.nodes
    ensures |RewireWith(entries, g, p, tree, mo, go).nodes| == |g.nodes|
  {
    var f := FreshId(g.order);
    FreshIdNotInGraph(g);
    RewireWithNodes(entries, g, p, tree, mo, go);
    var r := RewireWith(entries, g, p, tree, mo, go);
    assert r.nodes.Keys == (g.nodes.Keys - {p}) + {f};
    assert |r.nodes.Keys| == |g.nodes.Keys - {p}| + 1;
  }

  /**
   * The shape of a rewritten graph: the Principled node is gone, exactly one
   * group node using the FePBR tree takes its place (at its location, width
   * 300, last in iteration order), every other node is untouched, and the
   * graph is still well formed.
   */
  lemma RewireShape(g: Graph, p: NodeId, tree: NodeTree, mo: Option<NodeId>, go: Option<NodeId>)
    requires Valid(g) && p in g.nodes
    ensures var r := Rewire(g, p, tree, mo, go); var f := FreshId(g.order);
      && f !in g.nodes
      && r.order == Without(g.order, p) + [f]
      && r.nodes == (g.nodes - {p})[f := GroupNode(g, p, tree)]
      && p !in r.nodes
      && r.nodes[f].kind == Group(tree)
      && r.nodes[f].location == g.nodes[p].location
      && r.nodes[f].width == 300.0
      && |r.nodes| == |g.nodes|
      && Valid(r)
  {
    FreshIdNotInGraph(g);
    RewireWithNodes(InputMap, g, p, tree, mo, go);
    RewireWithValid(InputMap, g, p, tree, mo, go);
    RewireWithCount(InputMap, g, p, tree, mo, go);
  }

  /** The Principled node a rewrite replaces is the last one in iteration order. */
  lemma PrincipledChosen(g: Graph)
    requires HasKind(g, IsPrincipled)
    ensures var p := PrincipledOf(g);
      && p in g.nodes && g.nodes[p].kind.Principled?
      && exists i :: 0 <= i < |g.order| && g.order[i] == p
                     && forall j :: i < j < |g.order| ==> !Matches(g, g.order[j], IsPrincipled)
  {
    var i := FindLast(g, IsPrincipled).value;
    assert g.order[i] == PrincipledOf(g);
  }

  /** The material output a rewrite links into is the first one in iteration order, if any. */
  lemma MaterialOutputChosen(g: Graph)
    ensures var mo := MaterialOutputOf(g);
      && (mo.Some? <==> HasKind(g, IsMaterialOutput))
      && (mo.Some? ==> mo.value in g.nodes && g.nodes[mo.value].kind.MaterialOutput?)
      && (mo.Some? ==>
            exists i :: 0 <= i < |g.order| && g.order[i] == mo.value
                        && forall j :: 0 <= j < i ==> !Matches(g, g.order[j], IsMaterialOutput))
  {
    var fo := FindFirst(g, IsMaterialOutput);
    if fo.Some? {
      assert g.order[fo.value] == MaterialOutputOf(g).value;
    }
  }

  /** The glTF output group whose occlusion is forwarded is the last one in iteration order, if any. */
  lemma GltfOutputChosen(g: Graph)
    ensures var go := GltfOutputOf(g);
      && (go.Some? <==> HasKind(g, IsGltfOutput))
      && (go.Some? ==> go.value in g.nodes && IsGltfOutput(g.nodes[go.value].kind))
      && (go.Some? ==>
            exists i :: 0 <= i < |g.order| && g.order[i] == go.value
                        && forall j :: i < j < |g.order| ==> !Matches(g, g.order[j], IsGltfOutput))
  {
    var lo := FindLast(g, IsGltfOutput);
    if lo.Some? {
      assert g.order[lo.value] == GltfOutputOf(g).value;
    }
  }

  /**
   * A rewrite happens only with a template holding a FePBR group, and then
   * replaces the graph's last Principled node with that group, linking into
   * its first material output and forwarding its last glTF output group.
   */
  lemma ReplaceChoosesNodes(m: Material, template: Option<Material>)
    requires Replace(m, template).Rewritten?
    ensures template.Some? && HasKind(template.value.tree, IsFePBRGroup)
    ensures m.useNodes && HasKind(m.tree, IsPrincipled)
    ensures Replace(m, template).graph ==
            Rewire(m.tree, PrincipledOf(m.tree), FePBRTreeOf(template.value.tree),
                   MaterialOutputOf(m.tree), GltfOutputOf(m.tree))
    ensures MaterialOutputOf(m.tree).Some? ==> MaterialOutputOf(m.tree).value != PrincipledOf(m.tree)
  {
    PrincipledChosen(m.tree);
    MaterialOutputChosen(m.tree);
  }
}

=== FILE: files.dfy ===
/**
 * The parts of the disk the exporter reads and writes: a map from absolute
 * path to file contents. Only regular files are modelled, so
 * `os.path.isfile(p)` and `os.path.exists(p)` both mean `p in fs`.
 */
module Files {
  import opened Base

  /** One entry of a glTF document's `images` array: the keys the exporter reads or writes. */
  datatype GltfImage = GltfImage(uri: Option<string>, bufferView: Option<nat>, mimeType: Option<string>, name: Option<string>)

  /** A glTF document; `images` is None when the key is absent. `rest` stands for everything else in it. */
  datatype GltfDoc = GltfDoc(images: Option<seq<GltfImage>>, rest: nat)

  /** `gltf_img.get('uri', '')`. */
  function UriOf(img: GltfImage): string {
    img.uri.GetOr("")
  }

  /** `gltf_data.get('images', [])`. */
  function ImagesOf(doc: GltfDoc): seq<GltfImage> {
    doc.images.GetOr([])
  }

  /** A rotation quaternion. */
  datatype Quat = Quat(x: real, y: real, z: real, w: real)

  /** The per-instance record the manifest `selected_meshes.json` lists. */
  datatype ManifestRecord = ManifestRecord(
    name: string, meshData: string, isLinked: bool, assetPath: string,
    location: Vec3, rotation: Quat, scale: Vec3)

  /** What a file holds: JSON the exporter parses as glTF, the manifest, or anything else. */
  datatype Content =
    | Gltf(doc: GltfDoc)
    | Manifest(records: seq<ManifestRecord>)
    | Blob(bytes: seq<int>)

  type FileSystem = map<string, Content>

  /** `os.remove(p)` when `p` is a file; nothing otherwise. */
  function RemoveIfFile(fs: FileSystem, p: string): (r: FileSystem)
    ensures p !in r
    ensures forall q :: q != p ==> (q in r <==> q in fs) && (q in r ==> r[q] == fs[q])
  {
    if p in fs then fs - {p} else fs
  }
}

=== FILE: gltf_import.dfy ===
/**
 * `ImportGLTFFiles.execute`: keep the chosen file names ending in .gltf/.glb,
 * import each file, and give every material of every imported mesh a
 * `<name>_FePBR` copy rewritten by `replace_with_fepbr`. A file whose
 * processing raises is reported and not counted; the loop goes on.
 */
module GltfImport {
  import opened Base
  import opened Strings
  import opened Paths
  import opened Shading
  import opened FePBR

  /** `name.lower().endswith(('.gltf', '.glb'))`. */
  predicate IsGltfName(name: string) {
    EndsWith(Lower(name), ".gltf") || EndsWith(Lower(name), ".glb")
  }

  /** The chosen file names that will be imported, in the order chosen. */
  function GltfNames(names: seq<string>): (r: seq<string>)
    ensures |r| <= |names|
    ensures forall n :: n in r <==> n in names && IsGltfName(n)
    ensures |names| == 1 ==> r == (if IsGltfName(names[0]) then names else [])
  {
    if names == [] then []
    else if IsGltfName(names[0]) then [names[0]] + GltfNames(names[1..])
    else GltfNames(names[1..])
  }

  /**
   * Filtering commutes with concatenation. With the one-name case this fixes
   * the result: the accepted names in their chosen order, repeats included.
   */
  lemma {:induction false} GltfNamesAppend(a: seq<string>, b: seq<string>)
    ensures GltfNames(a + b) == GltfNames(a) + GltfNames(b)
    decreases |a|
  {
    if a != [] {
      assert (a + b)[1..] == a[1..] + b;
      GltfNamesAppend(a[1..], b);
    } else {
      assert a + b == b;
    }
  }

  /** The full paths of the chosen files that will be imported. */
  function ValidFiles(directory: string, names: seq<string>): (paths: seq<string>)
    ensures |paths| <= |names|
  {
    var ns := GltfNames(names);
    seq(|ns|, i requires 0 <= i < |ns| => Join(directory, ns[i]))
  }

  /** A path is imported exactly when it joins the directory with a chosen .gltf/.glb name. */
  lemma ValidFilesExactly(directory: string, names: seq<string>)
    ensures forall n :: n in names && IsGltfName(n) ==> Join(directory, n) in ValidFiles(directory, names)
    ensures forall p :: p in ValidFiles(directory, names) ==>
              exists n :: n in names && IsGltfName(n) && p == Join(directory, n)
  {
    var ns := GltfNames(names);
    var paths := ValidFiles(directory, names);
    forall n | n in names && IsGltfName(n)
      ensures Join(directory, n) in paths
    {
      var i :| 0 <= i < |ns| && ns[i] == n;
      assert paths[i] == Join(directory, n);
    }
    forall p | p in paths
      ensures exists n :: n in names && IsGltfName(n) && p == Join(directory, n)
    {
      var i :| 0 <= i < |paths| && paths[i] == p;
      assert ns[i] in ns;
    }
  }

  /** An object the host importer created: its type and, for a mesh, the mesh datablock (`obj.data`) it uses. */
  datatype ImportedObject = ImportedObject(name: string, isMesh: bool, mesh: nat)

  /**
   * The material slots of each mesh datablock. Slots belong to the mesh, not
   * to the object: objects instancing one mesh see the same slots.
   */
  type MeshSlots = map<nat, seq<Option<Material>>>

  /** What one import adds: the new objects, in the order their set is iterated, and their meshes. */
  datatype NewObjects = NewObjects(objects: seq<ImportedObject>, meshes: MeshSlots)

  /** The name given to the rewritten copy of a material. */
  function CopyName(name: string): string {
    name + "_FePBR"
  }

  /** The slot contents after converting `m` when the rewrite does not raise. */
  function Converted(m: Material, template: Option<Material>): Material {
    var copy := m.(name := CopyName(m.name));
    copy.(tree := TreeAfter(copy, Replace(copy, template)))
  }

  /** The rewrite of `m` needs the template (it uses nodes and has a Principled node) but there is none. */
  predicate NeedsMissingTemplate(m: Material, template: Option<Material>) {
    template.None? && m.useNodes && HasKind(m.tree, IsPrincipled)
  }

  predicate SlotRaises(slot: Option<Material>, template: Option<Material>) {
    slot.Some? && NeedsMissingTemplate(slot.value, template)
  }

  function ConvertSlot(slot: Option<Material>, template: Option<Material>): Option<Material> {
    if slot.Some? then Some(Converted(slot.value, template)) else None
  }

  /** A slot raises exactly when `Replace` raises on its renamed copy. */
  lemma SlotRaisesIsRaise(slot: Option<Material>, template: Option<Material>)
    requires slot.Some?
    ensures SlotRaises(slot, template) <==> Replace(slot.value.(name := CopyName(slot.value.name)), template).Raised?
  {
  }

  /** The slots after the loop and the index of the slot whose rewrite raised, if one did. */
  datatype SlotsResult = SlotsResult(slots: seq<Option<Material>>, raisedAt: Option<nat>)

  /** Where the slot loop stops: at the raising slot, or after the last slot. */
  function Stop(r: SlotsResult, n: nat): nat {
    if r.raisedAt.Some? then r.raisedAt.value else n
  }

  /** The index of the first slot whose rewrite raises, or the number of slots when none does. */
  function FirstRaising(mats: seq<Option<Material>>, template: Option<Material>): (k: nat)
    ensures k <= |mats|
    ensures forall i :: 0 <= i < k ==> !SlotRaises(mats[i], template)
    ensures k < |mats| ==> SlotRaises(mats[k], template)
    decreases |mats|
  {
    if mats == [] then 0
    else if SlotRaises(mats[0], template) then 0
    else
      assert forall i :: 1 <= i < |mats| ==> mats[i] == mats[1..][i - 1];
      1 + FirstRaising(mats[1..], template)
  }

  /**
   * The slot loop of lines 171-183: every filled slot gets a renamed copy that
   * `Replace` rewrites; the first slot whose rewrite raises ends the loop,
   * leaving it and every later slot as they were.
   */
  function ConvertSlots(mats: seq<Option<Material>>, template: Option<Material>): (r: SlotsResult)
    ensures |r.slots| == |mats|
    ensures r.raisedAt.Some? ==> r.raisedAt.value < |mats| && SlotRaises(mats[r.raisedAt.value], template)
    ensures forall i :: 0 <= i < Stop(r, |mats|) ==> !SlotRaises(mats[i], template)
    ensures forall i :: 0 <= i < Stop(r, |mats|) ==> r.slots[i] == ConvertSlot(mats[i], template)
    ensures forall i :: Stop(r, |mats|) <= i < |mats| ==> r.slots[i] == mats[i]
  {
    var k := FirstRaising(mats, template);
    var converted := seq(k, i requires 0 <= i < k => ConvertSlot(mats[i], template));
    SlotsResult(converted + mats[k..], if k < |mats| then Some(k) else None)
  }

  /** The slot loop raises exactly when some filled slot needs the missing template. */
  lemma ConvertSlotsRaises(mats: seq<Option<Material>>, template: Option<Material>)
    ensures ConvertSlots(mats, template).raisedAt.Some? <==>
            exists i :: 0 <= i < |mats| && SlotRaises(mats[i], template)
  {
    var r := ConvertSlots(mats, template);
    if r.raisedAt.Some? {
      assert SlotRaises(mats[r.raisedAt.value], template);
    }
  }

  /** With a template nothing raises, and every slot is converted. */
  lemma TemplateConvertsAll(mats: seq<Option<Material>>, template: Option<Material>)
    requires template.Some?
    ensures ConvertSlots(mats, template).raisedAt.None?
    ensures forall i :: 0 <= i < |mats| ==> ConvertSlots(mats, template).slots[i] == ConvertSlot(mats[i], template)
  {
  }

  /** Every converted slot holds a material named `<original>_FePBR`. */
  lemma ConvertedNames(mats: seq<Option<Material>>, template: Option<Material>)
    ensures var r := ConvertSlots(mats, template);
            forall i :: 0 <= i < Stop(r, |mats|) && mats[i].Some? ==>
              r.slots[i].Some? && r.slots[i].value.name == mats[i].value.name + "_FePBR"
  {
  }

  /** `obj.type == 'MESH'`, with its mesh datablock among the imported ones. */
  predicate UsesMesh(o: ImportedObject, meshes: MeshSlots) {
    o.isMesh && o.mesh in meshes
  }

  /** The number of mesh objects among `objs` that use datablock `id`. */
  function Users(objs: seq<ImportedObject>, id: nat): nat
    decreases |objs|
  {
    if objs == [] then 0
    else (if objs[0].isMesh && objs[0].mesh == id then 1 else 0) + Users(objs[1..], id)
  }

  /** The slots after `n` runs of the slot loop over the same mesh. */
  function Reconvert(mats: seq<Option<Material>>, template: Option<Material>, n: nat): (r: seq<Option<Material>>)
    ensures |r| == |mats|
    decreases n
  {
    if n == 0 then mats else Reconvert(ConvertSlots(mats, template).slots, template, n - 1)
  }

  /** Some filled slot of a mesh needs the missing template. */
  predicate MeshRaises(mats: seq<Option<Material>>, template: Option<Material>) {
    exists k :: 0 <= k < |mats| && SlotRaises(mats[k], template)
  }

  /**
   * The object loop of lines 168-183 over one file's new objects. Each mesh
   * object runs the slot loop on its mesh's slots and writes them back
   * (`obj.data.materials[i] = new_mat`), so a mesh shared by several objects
   * is converted once per object. A raise ends the loop; the second result
   * says whether one happened.
   */
  function ConvertObjects(objs: seq<ImportedObject>, meshes: MeshSlots, template: Option<Material>): (r: (MeshSlots, bool))
    ensures r.0.Keys == meshes.Keys
    ensures forall id :: id in meshes ==> |r.0[id]| == |meshes[id]|
    ensures forall id :: id in meshes && Users(objs, id) == 0 ==> r.0[id] == meshes[id]
    ensures template.Some? ==> !r.1
    decreases |objs|
  {
    if objs == [] then (meshes, false)
    else
      var o := objs[0];
      if !UsesMesh(o, meshes) then ConvertObjects(objs[1..], meshes, template)
      else
        var c := ConvertSlots(meshes[o.mesh], template);
        var meshes' := meshes[o.mesh := c.slots];
        if c.raisedAt.Some? then (meshes', true)
        else ConvertObjects(objs[1..], meshes', template)
  }

  /** Without a raise, each imported mesh has been through the slot loop once per object using it. */
  ghost predicate RunsPerUser(objs: seq<ImportedObject>, meshes: MeshSlots, template: Option<Material>) {
    var r := ConvertObjects(objs, meshes, template);
    !r.1 ==> forall id :: id in meshes ==> r.0[id] == Reconvert(meshes[id], template, Users(objs, id))
  }

  /** An object that uses no imported mesh adds no run. */
  lemma RunsPerUserSkip(objs: seq<ImportedObject>, meshes: MeshSlots, template: Option<Material>)
    requires objs != [] && !UsesMesh(objs[0], meshes)
    requires RunsPerUser(objs[1..], meshes, template)
    ensures RunsPerUser(objs, meshes, template)
  {
  }

  /** A mesh object adds one run on its own mesh. */
  lemma RunsPerUserStep(objs: seq<ImportedObject>, meshes: MeshSlots, template: Option<Material>)
    requires objs != [] && UsesMesh(objs[0], meshes)
    requires ConvertSlots(meshes[objs[0].mesh], template).raisedAt.None?
    requires RunsPerUser(objs[1..], meshes[objs[0].mesh := ConvertSlots(meshes[objs[0].mesh], template).slots], template)
    ensures RunsPerUser(objs, meshes, template)
  {
    var id0 := objs[0].mesh;
    var c := ConvertSlots(meshes[id0], template);
    var meshes' := meshes[id0 := c.slots];
    var r := ConvertObjects(objs, meshes, template);
    assert r == ConvertObjects(objs[1..], meshes', template);
    if !r.1 {
      RunsShift(objs, meshes, template, id0, c.slots, r.0);
    }
  }

  /** The per-mesh run counts after the first object, moved back to before it. */
  lemma RunsShift(objs: seq<ImportedObject>, meshes: MeshSlots, template: Option<Material>,
                  id0: nat, slots: seq<Option<Material>>, done: MeshSlots)
    requires objs != [] && objs[0].isMesh && objs[0].mesh == id0 && id0 in meshes && meshes.Keys <= done.Keys
    requires slots == ConvertSlots(meshes[id0], template).slots
    requires forall id :: id in meshes[id0 := slots] ==>
               done[id] == Reconvert(meshes[id0 := slots][id], template, Users(objs[1..], id))
    ensures forall id :: id in meshes ==> done[id] == Reconvert(meshes[id], template, Users(objs, id))
  {
    assert Users(objs, id0) == 1 + Users(objs[1..], id0);
    forall id | id in meshes
      ensures done[id] == Reconvert(meshes[id], template, Users(objs, id))
    {
      if id != id0 {
        assert Users(objs, id) == Users(objs[1..], id);
        assert meshes[id0 := slots][id] == meshes[id];
      }
    }
  }

  lemma {:induction false} ConvertObjectsEffect(objs: seq<ImportedObject>, meshes: MeshSlots, template: Option<Material>)
    ensures RunsPerUser(objs, meshes, template)
    decreases |objs|
  {
    if objs != [] {
      var o := objs[0];
      if !UsesMesh(o, meshes) {
        ConvertObjectsEffect(objs[1..], meshes, template);
        RunsPerUserSkip(objs, meshes, template);
      } else {
        var c := ConvertSlots(meshes[o.mesh], template);
        if c.raisedAt.None? {
          ConvertObjectsEffect(objs[1..], meshes[o.mesh := c.slots], template);
          RunsPerUserStep(objs, meshes, template);
        }
      }
    }
  }

  /** After a pass that did not raise, no slot of the result raises. */
  lemma ConvertedCalm(mats: seq<Option<Material>>, template: Option<Material>)
    requires ConvertSlots(mats, template).raisedAt.None?
    ensures !MeshRaises(ConvertSlots(mats, template).slots, template)
  {
    var r := ConvertSlots(mats, template).slots;
    forall k | 0 <= k < |mats| ensures !SlotRaises(r[k], template) {
      if mats[k].Some? {
        SlotRaisesIsRaise(mats[k], template);
      }
    }
  }

  /** The object loop raises exactly when a mesh object's mesh, as imported, has a slot needing the missing template. */
  lemma {:induction false} ConvertObjectsRaises(objs: seq<ImportedObject>, meshes: MeshSlots, template: Option<Material>)
    ensures ConvertObjects(objs, meshes, template).1 <==>
            exists i :: 0 <= i < |objs| && UsesMesh(objs[i], meshes) && MeshRaises(meshes[objs[i].mesh], template)
    decreases |objs|
  {
    if objs != [] {
      var o := objs[0];
      var tail := objs[1..];
      assert forall i :: 1 <= i < |objs| ==> objs[i] == tail[i - 1];
      if !UsesMesh(o, meshes) {
        ConvertObjectsRaises(tail, meshes, template);
      } else {
        var c := ConvertSlots(meshes[o.mesh], template);
        ConvertSlotsRaises(meshes[o.mesh], template);
        if c.raisedAt.None? {
          var meshes' := meshes[o.mesh := c.slots];
          ConvertObjectsRaises(tail, meshes', template);
          ConvertedCalm(meshes[o.mesh], template);
          CalmShift(tail, meshes, o.mesh, c.slots, template);
        }
      }
    }
  }

  /** Replacing a mesh that does not raise by one that does not either changes no object's verdict. */
  lemma CalmShift(objs: seq<ImportedObject>, meshes: MeshSlots, id0: nat, slots: seq<Option<Material>>, template: Option<Material>)
    requires id0 in meshes && !MeshRaises(meshes[id0], template) && !MeshRaises(slots, template)
    ensures forall i :: 0 <= i < |objs| && UsesMesh(objs[i], meshes) ==>
              UsesMesh(objs[i], meshes[id0 := slots]) &&
              (MeshRaises(meshes[id0 := slots][objs[i].mesh], template) <==> MeshRaises(meshes[objs[i].mesh], template))
  {
  }

  /** `<name>` followed by `n` copies of "_FePBR". */
  function Suffixed(name: string, n: nat): string {
    if n == 0 then name else Suffixed(name, n - 1) + "_FePBR"
  }

  /** With a template, `n` runs over the same slots leave each filled slot named `<original>` plus `n` suffixes. */
  lemma {:induction false} ReconvertNames(mats: seq<Option<Material>>, template: Option<Material>, n: nat)
    requires template.Some?
    ensures forall i :: 0 <= i < |mats| ==> (Reconvert(mats, template, n)[i].Some? <==> mats[i].Some?)
    ensures forall i :: 0 <= i < |mats| && mats[i].Some? ==>
              Reconvert(mats, template, n)[i].value.name == Suffixed(mats[i].value.name, n)
    decreases n
  {
    if n > 0 {
      var once := ConvertSlots(mats, template).slots;
      ReconvertNames(once, template, n - 1);
      forall i | 0 <= i < |mats| && mats[i].Some?
        ensures Suffixed(once[i].value.name, n - 1) == Suffixed(mats[i].value.name, n)
      {
        SuffixedShift(mats[i].value.name, n - 1);
      }
    }
  }

  /** One suffix in front of `n` is the same as `n + 1` suffixes. */
  lemma {:induction false} SuffixedShift(name: string, n: nat)
    ensures Suffixed(name + "_FePBR", n) == Suffixed(name, n + 1)
    decreases n
  {
    if n > 0 {
      SuffixedShift(name, n - 1);
    }
  }

  /**
   * Two objects instancing one mesh: with a template, a slot first named `X`
   * ends up named `X_FePBR_FePBR`, the second run copying the first run's copy.
   */
  lemma SharedMeshConvertedTwice(a: ImportedObject, b: ImportedObject, meshes: MeshSlots, template: Option<Material>, k: nat)
    requires template.Some? && a.isMesh && b.isMesh && a.mesh == b.mesh && a.mesh in meshes
    requires k < |meshes[a.mesh]| && meshes[a.mesh][k].Some?
    ensures var r := ConvertObjects([a, b], meshes, template).0;
            r[a.mesh][k].Some? && r[a.mesh][k].value.name == meshes[a.mesh][k].value.name + "_FePBR" + "_FePBR"
  {
    assert Users([b], a.mesh) == 1 by {
      assert [b][1..] == [];
    }
    assert Users([a, b], a.mesh) == 2 by {
      assert [a, b][1..] == [b];
    }
    ConvertObjectsEffect([a, b], meshes, template);
    ReconvertNames(meshes[a.mesh], template, 2);
  }

  /** One file of the import loop: what happened and the imported meshes' slots it left behind. */
  datatype FileOutcome = Imported(meshes: MeshSlots) | Failed(meshes: MeshSlots)

  /**
   * Lines 156-189 for one path. `importer` stands for the host glTF importer:
   * the objects and meshes it adds, or None when it raises.
   */
  function ImportFile(path: string, template: Option<Material>,
                      importer: string -> Option<NewObjects>): (o: FileOutcome)
    ensures importer(path).None? ==> o == Failed(map[])
    ensures importer(path).Some? ==> o.meshes.Keys == importer(path).value.meshes.Keys
    ensures template.Some? && importer(path).Some? ==>
              var n := importer(path).value;
              && o.Imported?
              && forall id :: id in n.meshes ==> o.meshes[id] == Reconvert(n.meshes[id], template, Users(n.objects, id))
  {
    match importer(path)
    case None => Failed(map[])
    case Some(n) =>
      ConvertObjectsEffect(n.objects, n.meshes, template);
      var c := ConvertObjects(n.objects, n.meshes, template);
      if c.1 then Failed(c.0) else Imported(c.0)
  }

  function CountImported(outcomes: seq<FileOutcome>): (n: nat)
    ensures n <= |outcomes|
    ensures n == |outcomes| <==> forall i :: 0 <= i < |outcomes| ==> outcomes[i].Imported?
    decreases |outcomes|
  {
    if outcomes == [] then 0
    else
      assert forall i :: 1 <= i < |outcomes| ==> outcomes[i] == outcomes[1..][i - 1];
      (if outcomes[0].Imported? then 1 else 0) + CountImported(outcomes[1..])
  }

  datatype ImportReport = ImportReport(files: seq<string>, outcomes: seq<FileOutcome>, imported: nat)

  /**
   * `execute`: filter the chosen names, import each file in turn, count the
   * files that went through without raising. `importer` stands for
   * `bpy.ops.import_scene.gltf`: what it adds, or None when it raises.
   */
  function Execute(directory: string, names: seq<string>, template: Option<Material>,
                   importer: string -> Option<NewObjects>): (r: ImportReport)
    ensures r.files == ValidFiles(directory, names)
    ensures |r.outcomes| == |r.files|
    ensures forall i :: 0 <= i < |r.files| ==> r.outcomes[i] == ImportFile(r.files[i], template, importer)
    ensures r.imported == CountImported(r.outcomes) <= |r.files|
  {
    var files := ValidFiles(directory, names);
    ImportReport(files, ImportAll(files, template, importer), CountImported(ImportAll(files, template, importer)))
  }

  /** The file loop of lines 155-189: one outcome per path, a failure not stopping the loop. */
  function ImportAll(files: seq<string>, template: Option<Material>,
                     importer: string -> Option<NewObjects>): (outcomes: seq<FileOutcome>)
    ensures |outcomes| == |files|
    ensures forall i :: 0 <= i < |files| ==> outcomes[i] == ImportFile(files[i], template, importer)
    decreases |files|
  {
    if files == [] then []
    else
      assert forall i :: 1 <= i < |files| ==> files[i] == files[1..][i - 1];
      [ImportFile(files[0], template, importer)] + ImportAll(files[1..], template, importer)
  }

  /** The files the host importer reads without raising. */
  function Accepted(files: seq<string>, importer: string -> Option<NewObjects>): (n: nat)
    decreases |files|
  {
    if files == [] then 0
    else (if importer(files[0]).Some? then 1 else 0) + Accepted(files[1..], importer)
  }

  /** A file is counted only if the importer read it and no mesh it added, as imported, has a slot needing the missing template. */
  lemma ImportedMeansConverted(path: string, template: Option<Material>, importer: string -> Option<NewObjects>)
    ensures ImportFile(path, template, importer).Imported? <==>
            (importer(path).Some? &&
             var n := importer(path).value;
             forall i :: 0 <= i < |n.objects| && UsesMesh(n.objects[i], n.meshes) ==>
               !MeshRaises(n.meshes[n.objects[i].mesh], template))
  {
    if importer(path).Some? {
      var n := importer(path).value;
      ConvertObjectsRaises(n.objects, n.meshes, template);
    }
  }

  /** With the template loaded, every file the importer reads counts as imported. */
  lemma {:induction false} TemplateCountsAccepted(files: seq<string>, template: Option<Material>,
                                                  importer: string -> Option<NewObjects>)
    requires template.Some?
    ensures CountImported(ImportAll(files, template, importer)) == Accepted(files, importer)
    decreases |files|
  {
    if files != [] {
      TemplateCountsAccepted(files[1..], template, importer);
      assert ImportAll(files, template, importer)[1..] == ImportAll(files[1..], template, importer);
    }
  }
}

=== FILE: grid.dfy ===
/**
 * `ArrangeSelectedMeshes`: lay the selected meshes out on the ground plane in
 * a row-wrapping grid, largest footprint first. Sizes are the world-space
 * bounding-box extents, taken as given corner coordinates.
 */
module Grid {
  import opened Base

  /** A selected object: its type and the world-space corners of its bounding box. */
  datatype SceneObject = SceneObject(name: string, isMesh: bool, corners: seq<Vec3>)

  function Max(a: real, b: real): real {
    if a < b then b else a
  }

  /** The largest spread `max - min` among `vals`. */
  function Spread(vals: seq<real>): (r: real)
    requires |vals| > 0
    ensures r >= 0.0
    ensures forall i, j :: 0 <= i < |vals| && 0 <= j < |vals| ==> vals[i] - vals[j] <= r
    ensures exists i, j :: 0 <= i < |vals| && 0 <= j < |vals| && r == vals[i] - vals[j]
  {
    var hi := MaxOf(vals);
    var lo := MinOf(vals);
    hi - lo
  }

  function MaxOf(vals: seq<real>): (r: real)
    requires |vals| > 0
    ensures forall i :: 0 <= i < |vals| ==> vals[i] <= r
    ensures exists i :: 0 <= i < |vals| && r == vals[i]
    decreases |vals|
  {
    if |vals| == 1 then vals[0]
    else
      var rest := MaxOf(vals[1..]);
      assert forall i :: 1 <= i < |vals| ==> vals[i] == vals[1..][i - 1];
      Max(vals[0], rest)
  }

  function MinOf(vals: seq<real>): (r: real)
    requires |vals| > 0
    ensures forall i :: 0 <= i < |vals| ==> r <= vals[i]
    ensures exists i :: 0 <= i < |vals| && r == vals[i]
    decreases |vals|
  {
    if |vals| == 1 then vals[0]
    else
      var rest := MinOf(vals[1..]);
      assert forall i :: 1 <= i < |vals| ==> vals[i] == vals[1..][i - 1];
      if vals[0] < rest then vals[0] else rest
  }

  function Xs(cs: seq<Vec3>): (r: seq<real>)
    ensures |r| == |cs| && forall i :: 0 <= i < |cs| ==> r[i] == cs[i].x
  {
    seq(|cs|, i requires 0 <= i < |cs| => cs[i].x)
  }

  function Ys(cs: seq<Vec3>): (r: seq<real>)
    ensures |r| == |cs| && forall i :: 0 <= i < |cs| ==> r[i] == cs[i].y
  {
    seq(|cs|, i requires 0 <= i < |cs| => cs[i].y)
  }

  function Zs(cs: seq<Vec3>): (r: seq<real>)
    ensures |r| == |cs| && forall i :: 0 <= i < |cs| ==> r[i] == cs[i].z
  {
    seq(|cs|, i requires 0 <= i < |cs| => cs[i].z)
  }

  /** A bounding box always has its eight corners. */
  predicate HasBox(o: SceneObject) {
    |o.corners| > 0
  }

  /**
   * `get_object_bounds_size`: for a mesh, the extent of its corners along each
   * axis (the largest difference between two corners); for anything else, zero.
   */
  function BoundsSize(o: SceneObject): (r: Vec3)
    requires o.isMesh ==> HasBox(o)
    ensures !o.isMesh ==> r == Vec3(0.0, 0.0, 0.0)
    ensures r.x >= 0.0 && r.y >= 0.0 && r.z >= 0.0
    ensures o.isMesh ==> forall i, j :: 0 <= i < |o.corners| && 0 <= j < |o.corners| ==>
              o.corners[i].x - o.corners[j].x <= r.x
              && o.corners[i].y - o.corners[j].y <= r.y
              && o.corners[i].z - o.corners[j].z <= r.z
    ensures o.isMesh ==>
              exists i, j :: 0 <= i < |o.corners| && 0 <= j < |o.corners| && r.x == o.corners[i].x - o.corners[j].x
    ensures o.isMesh ==>
              exists i, j :: 0 <= i < |o.corners| && 0 <= j < |o.corners| && r.y == o.corners[i].y - o.corners[j].y
  {
    if o.isMesh then
      var xs, ys, zs := Xs(o.corners), Ys(o.corners), Zs(o.corners);
      Vec3(Spread(xs), Spread(ys), Spread(zs))
    else Vec3(0.0, 0.0, 0.0)
  }

  /** An object queued for placement: its index in the selection, its size and its footprint. */
  datatype Item = Item(index: nat, size: Vec3, area: real)

  /** The footprint used as sort key: x extent times y extent (line 60). */
  function Area(size: Vec3): (a: real)
    requires size.x >= 0.0 && size.y >= 0.0
    ensures a >= 0.0
  {
    MulNonNegative(size.x, size.y);
    size.x * size.y
  }

  lemma MulNonNegative(a: real, b: real)
    requires a >= 0.0 && b >= 0.0
    ensures a * b >= 0.0
  {
  }

  function MakeItem(index: nat, o: SceneObject): Item
    requires HasBox(o)
  {
    var s := BoundsSize(o);
    Item(index, s, Area(s))
  }

  // ---------------------------------------------------------------------
  // Sorting: Python's `sort(key=area, reverse=True)` is stable, so items of
  // equal area keep their selection order.
  // ---------------------------------------------------------------------

  predicate NonIncreasing(s: seq<Item>) {
    forall i, j :: 0 <= i < j < |s| ==> s[i].area >= s[j].area
  }

  /** Insert `x` after every item of larger area and before the rest. */
  function Insert(x: Item, s: seq<Item>): (r: seq<Item>)
    ensures multiset(r) == multiset(s) + multiset{x}
    ensures |r| == |s| + 1
    decreases |s|
  {
    if s == [] || s[0].area <= x.area then [x] + s
    else
      assert s == [s[0]] + s[1..];
      [s[0]] + Insert(x, s[1..])
  }

  /** Every item of `Insert(x, s)` is `x` or an item of `s`. */
  lemma {:induction false} InsertFrom(x: Item, s: seq<Item>)
    ensures forall k :: 0 <= k < |Insert(x, s)| ==> Insert(x, s)[k] == x || Insert(x, s)[k] in s
    decreases |s|
  {
    if s != [] && s[0].area > x.area {
      InsertFrom(x, s[1..]);
      var rest := Insert(x, s[1..]);
      var r := [s[0]] + rest;
      assert forall k :: 1 <= k < |r| ==> r[k] == rest[k - 1];
      assert forall y :: y in s[1..] ==> y in s;
    }
  }

  /** Inserting into a list sorted by decreasing area keeps it sorted. */
  lemma {:induction false} InsertSorted(x: Item, s: seq<Item>)
    requires NonIncreasing(s)
    ensures NonIncreasing(Insert(x, s))
    decreases |s|
  {
    if s != [] && s[0].area > x.area {
      var rest := Insert(x, s[1..]);
      InsertSorted(x, s[1..]);
      InsertFrom(x, s[1..]);
      forall k | 0 <= k < |rest| ensures s[0].area >= rest[k].area {
        if rest[k] != x {
          var j :| 0 <= j < |s[1..]| && s[1..][j] == rest[k];
          assert s[j + 1] == rest[k];
        }
      }
      var r := [s[0]] + rest;
      forall i, j | 0 <= i < j < |r| ensures r[i].area >= r[j].area {
        assert r[j] == rest[j - 1];
        if i > 0 {
          assert r[i] == rest[i - 1];
        }
      }
    }
  }

  function SortByArea(s: seq<Item>): (r: seq<Item>)
    ensures multiset(r) == multiset(s)
    ensures |r| == |s|
    ensures NonIncreasing(r)
    decreases |s|
  {
    if s == [] then []
    else
      assert s == [s[0]] + s[1..];
      var rest := SortByArea(s[1..]);
      InsertSorted(s[0], rest);
      Insert(s[0], rest)
  }

  /** The items of area exactly `a`, in order. */
  function OfArea(s: seq<Item>, a: real): seq<Item>
    decreases |s|
  {
    if s == [] then []
    else (if s[0].area == a then [s[0]] else []) + OfArea(s[1..], a)
  }

  lemma {:induction false} InsertOfArea(x: Item, s: seq<Item>, a: real)
    ensures OfArea(Insert(x, s), a) == (if x.area == a then [x] else []) + OfArea(s, a)
    decreases |s|
  {
    if s == [] || s[0].area <= x.area {
      assert Insert(x, s) == [x] + s;
      assert ([x] + s)[1..] == s;
    } else {
      var rest := Insert(x, s[1..]);
      assert Insert(x, s) == [s[0]] + rest;
      assert ([s[0]] + rest)[1..] == rest;
      InsertOfArea(x, s[1..], a);
      var head := if s[0].area == a then [s[0]] else [];
      var mid := if x.area == a then [x] else [];
      assert OfArea(Insert(x, s), a) == head + (mid + OfArea(s[1..], a));
      assert OfArea(s, a) == head + OfArea(s[1..], a);
      assert head == [] || mid == [];
    }
  }

  /** The sort is stable: among items of equal area the selection order survives. */
  lemma {:induction false} SortStable(s: seq<Item>, a: real)
    ensures OfArea(SortByArea(s), a) == OfArea(s, a)
    decreases |s|
  {
    if s != [] {
      SortStable(s[1..], a);
      InsertOfArea(s[0], SortByArea(s[1..]), a);
    }
  }

  // ---------------------------------------------------------------------
  // Column count.
  // ---------------------------------------------------------------------

  /** `c == math.ceil(math.sqrt(n))` in exact arithmetic: the least `c` with `c * c >= n`. */
  predicate IsCeilSqrt(c: nat, n: nat) {
    c * c >= n && (c == 0 || (c - 1) * (c - 1) < n)
  }

  method CeilSqrt(n: nat) returns (c: nat)
    ensures IsCeilSqrt(c, n)
  {
    c := 0;
    while c * c < n
      invariant c == 0 || (c - 1) * (c - 1) < n
      decreases n - c
    {
      c := c + 1;
    }
  }

  /** The least-square-root characterisation has only one solution. */
  lemma CeilSqrtUnique(c: nat, d: nat, n: nat)
    requires IsCeilSqrt(c, n) && IsCeilSqrt(d, n)
    ensures c == d
  {
    if d > 0 {
      MulMono(c, d - 1);
    }
    if c > 0 {
      MulMono(d, c - 1);
    }
  }

  lemma MulMono(a: nat, b: nat)
    ensures a <= b ==> a * a <= b * b
  {
    if a <= b {
      assert a * a <= a * b <= b * b;
    }
  }

  /** Lines 71-75: the requested column count, or the smallest square grid that fits `n` items. */
  method Columns(columns: nat, n: nat) returns (cols: nat)
    ensures columns > 0 ==> cols == columns
    ensures columns == 0 ==> IsCeilSqrt(cols, n)
    ensures n > 0 ==> cols > 0
  {
    if columns > 0 {
      cols := columns;
    } else {
      cols := CeilSqrt(n);
    }
  }

  // ---------------------------------------------------------------------
  // Placement: the loop of lines 80-108 as a fold over the sorted sizes.
  // ---------------------------------------------------------------------

  /** The loop's running state: `current_x`, `current_y`, `current_row_height`, `current_col`, `row_num`. */
  datatype Cursor = Cursor(x: real, y: real, rowHeight: real, col: nat, row: nat)

  datatype Placement = Placement(location: Vec3, row: nat, col: nat)

  const Start := Cursor(0.0, 0.0, 0.0, 0, 0)

  /** One iteration: wrap to a new row when the current one is full, place, then advance. */
  function Step(c: Cursor, size: Vec3, cols: nat, spacing: real): (r: (Placement, Cursor))
  {
    var c1 := if c.col >= cols then Cursor(0.0, c.y - (c.rowHeight + spacing), 0.0, 0, c.row + 1) else c;
    (Placement(Vec3(c1.x, c1.y, 0.0), c1.row, c1.col),
     Cursor(c1.x + size.x + spacing, c1.y, Max(c1.rowHeight, size.y), c1.col + 1, c1.row))
  }

  /**
   * One item: on the ground plane, at the cursor while the row has room,
   * otherwise at the start of the next row; the cursor then moves one column
   * right by the item's width plus the spacing, on the same line, with a row
   * height covering the item's depth.
   */
  lemma StepEffect(c: Cursor, size: Vec3, cols: nat, spacing: real)
    ensures var r := Step(c, size, cols, spacing);
            && r.0.location.z == 0.0
            && (c.col < cols ==> r.0.location.x == c.x && r.0.location.y == c.y && r.0.row == c.row && r.0.col == c.col)
            && (c.col >= cols ==> r.0.location.x == 0.0 && r.0.location.y == c.y - (c.rowHeight + spacing)
                                  && r.0.row == c.row + 1 && r.0.col == 0)
            && r.1.col == r.0.col + 1 && r.1.row == r.0.row && r.1.y == r.0.location.y
            && r.1.x == r.0.location.x + size.x + spacing
            && r.1.rowHeight >= size.y
            && r.1.rowHeight >= (if c.col < cols then c.rowHeight else 0.0)
  {
  }

  /** The tallest depth (y extent) among `sizes[lo..hi]`, or 0 when that range is empty. */
  function RowDepth(sizes: seq<Vec3>, lo: nat, hi: nat): (d: real)
    requires lo <= hi <= |sizes|
    ensures d >= 0.0
    ensures forall i :: lo <= i < hi ==> sizes[i].y <= d
    ensures d == 0.0 || exists i :: lo <= i < hi && d == sizes[i].y
    decreases hi - lo
  {
    if lo == hi then 0.0 else Max(RowDepth(sizes, lo, hi - 1), sizes[hi - 1].y)
  }

  /** The placements of `sizes` in order, and the cursor after the last one. */
  function Layout(sizes: seq<Vec3>, cols: nat, spacing: real): (r: (seq<Placement>, Cursor))
    ensures |r.0| == |sizes|
    ensures forall k :: 0 <= k < |sizes| ==> r.0[k].location.z == 0.0
    ensures sizes != [] ==> r.0[0] == Placement(Vec3(0.0, 0.0, 0.0), 0, 0) || cols == 0
    decreases |sizes|
  {
    if sizes == [] then ([], Start)
    else
      var n := |sizes|;
      var prev := Layout(sizes[..n - 1], cols, spacing);
      var s := Step(prev.1, sizes[n - 1], cols, spacing);
      (prev.0 + [s.0], s.1)
  }

  /** The k-th placement is the one made from the cursor left by the first k items. */
  lemma {:induction false} LayoutPrefix(sizes: seq<Vec3>, cols: nat, spacing: real, k: nat)
    requires k < |sizes|
    ensures Layout(sizes, cols, spacing).0[k] == Step(Layout(sizes[..k], cols, spacing).1, sizes[k], cols, spacing).0
    decreases |sizes|
  {
    var n := |sizes|;
    if k < n - 1 {
      LayoutPrefix(sizes[..n - 1], cols, spacing, k);
      assert sizes[..n - 1][..k] == sizes[..k];
    }
  }

  /** `RowDepth` reads only the range it covers. */
  lemma {:induction false} RowDepthPrefix(sizes: seq<Vec3>, lo: nat, hi: nat)
    requires lo <= hi < |sizes|
    ensures RowDepth(sizes[..|sizes| - 1], lo, hi) == RowDepth(sizes, lo, hi)
    decreases hi - lo
  {
    if lo < hi {
      RowDepthPrefix(sizes, lo, hi - 1);
    }
  }

  /**
   * The cursor after `n` items: column `col` of row `row` with `row * cols + col == n`,
   * the row height the tallest depth of the current row's items.
   */
  ghost predicate CursorAfter(sizes: seq<Vec3>, c: Cursor, cols: nat) {
    && c.col <= cols && c.row * cols + c.col == |sizes|
    && (|sizes| > 0 ==> c.col > 0)
    && (|sizes| == 0 ==> c == Start)
    && c.rowHeight == RowDepth(sizes, |sizes| - c.col, |sizes|)
  }

  lemma {:induction false} LayoutCursor(sizes: seq<Vec3>, cols: nat, spacing: real)
    requires cols > 0
    ensures CursorAfter(sizes, Layout(sizes, cols, spacing).1, cols)
    decreases |sizes|
  {
    if sizes != [] {
      var n := |sizes|;
      LayoutCursor(sizes[..n - 1], cols, spacing);
      var prev := Layout(sizes[..n - 1], cols, spacing).1;
      var c := Layout(sizes, cols, spacing).1;
      assert c == Step(prev, sizes[n - 1], cols, spacing).1;
      if prev.col < cols {
        RowDepthPrefix(sizes, n - 1 - prev.col, n - 1);
        assert c.rowHeight == Max(prev.rowHeight, sizes[n - 1].y);
      } else {
        assert c.rowHeight == Max(0.0, sizes[n - 1].y);
        assert c.row * cols + c.col == n by {
          assert c.row == prev.row + 1 && c.col == 1;
        }
      }
    }
  }

  /** Lines 92-101: where the k-th item is placed, relative to the cursor left by the items before it. */
  lemma PlacementFromCursor(sizes: seq<Vec3>, cols: nat, spacing: real, k: nat)
    requires cols > 0 && k < |sizes|
    ensures var c := Layout(sizes[..k], cols, spacing).1;
            var p := Layout(sizes, cols, spacing).0[k];
            && p.location.z == 0.0
            && p.col < cols && p.row * cols + p.col == k
            && (c.col < cols ==> p.location.x == c.x && p.location.y == c.y && p.col == c.col)
            && (c.col == cols ==> p.col == 0 && p.location.x == 0.0 && p.location.y == c.y - (c.rowHeight + spacing))
  {
    LayoutPrefix(sizes, cols, spacing, k);
    LayoutCursor(sizes[..k], cols, spacing);
    var c := Layout(sizes[..k], cols, spacing).1;
    var p := Layout(sizes, cols, spacing).0[k];
    assert p == Step(c, sizes[k], cols, spacing).0;
    StepEffect(c, sizes[k], cols, spacing);
    if c.col >= cols {
      assert p.row * cols + p.col == k by {
        assert (c.row + 1) * cols == c.row * cols + cols;
      }
    }
  }

  /** The cursor after `k + 1` items sits just right of the k-th item, on its line. */
  lemma CursorFromPlacement(sizes: seq<Vec3>, cols: nat, spacing: real, k: nat)
    requires k < |sizes|
    ensures var c := Layout(sizes[..k + 1], cols, spacing).1;
            var p := Layout(sizes, cols, spacing).0[k];
            c.x == p.location.x + sizes[k].x + spacing && c.y == p.location.y
  {
    LayoutPrefix(sizes, cols, spacing, k);
    assert sizes[..k + 1][..k] == sizes[..k];
  }

  lemma MulAtLeast(d: int, m: int)
    requires d >= 1 && m > 0
    ensures d * m >= m
  {
    var e := d - 1;
    assert d * m == e * m + m;
    assert e * m >= 0;
  }

  /** `k == q * cols + r` with `0 <= r < cols` determines `q` and `r` as `k / cols` and `k % cols`. */
  lemma DivModOf(k: int, cols: int, q: int, r: int)
    requires cols > 0 && 0 <= r < cols && k == q * cols + r
    ensures q == k / cols && r == k % cols
  {
    var q', r' := k / cols, k % cols;
    assert k == q' * cols + r';
    var d := q - q';
    assert d * cols == r' - r by {
      assert d * cols == q * cols - q' * cols;
    }
    if d >= 1 {
      MulAtLeast(d, cols);
    } else if d <= -1 {
      MulAtLeast(-d, cols);
    }
  }

  /** Line 87-108: the k-th placed item lands in row `k / cols`, column `k % cols`. */
  lemma RowAndColumn(sizes: seq<Vec3>, cols: nat, spacing: real, k: nat)
    requires cols > 0 && k < |sizes|
    ensures Layout(sizes, cols, spacing).0[k].row == k / cols
    ensures Layout(sizes, cols, spacing).0[k].col == k % cols
  {
    PlacementFromCursor(sizes, cols, spacing, k);
    var p := Layout(sizes, cols, spacing).0[k];
    DivModOf(k, cols, p.row, p.col);
  }

  /**
   * Lines 94 and 106: a row starts at x = 0, and each later item of a row sits
   * its predecessor's width plus the spacing further along.
   */
  lemma XAdvance(sizes: seq<Vec3>, cols: nat, spacing: real, k: nat)
    requires cols > 0 && k < |sizes|
    ensures var ps := Layout(sizes, cols, spacing).0;
            && (ps[k].col == 0 ==> ps[k].location.x == 0.0)
            && (ps[k].col > 0 ==> k > 0 && ps[k].location.x == ps[k - 1].location.x + sizes[k - 1].x + spacing)
  {
    PlacementFromCursor(sizes, cols, spacing, k);
    if k > 0 {
      CursorFromPlacement(sizes, cols, spacing, k - 1);
      assert k - 1 + 1 == k;
    } else {
      assert sizes[..0] == [];
    }
  }

  /**
   * Lines 95 and 107: within a row y stays put; a new row starts below the
   * previous one by that row's greatest depth plus the spacing.
   */
  lemma YAdvance(sizes: seq<Vec3>, cols: nat, spacing: real, k: nat)
    requires cols > 0 && 0 < k < |sizes|
    ensures var ps := Layout(sizes, cols, spacing).0;
            && (ps[k].col > 0 ==> ps[k].location.y == ps[k - 1].location.y)
            && (ps[k].col == 0 ==>
                  k >= cols && ps[k].location.y == ps[k - 1].location.y - (RowDepth(sizes, k - cols, k) + spacing))
  {
    PlacementFromCursor(sizes, cols, spacing, k);
    CursorFromPlacement(sizes, cols, spacing, k - 1);
    assert k - 1 + 1 == k;
    LayoutCursor(sizes[..k], cols, spacing);
    var c := Layout(sizes[..k], cols, spacing).1;
    RowDepthOfPrefix(sizes, k - c.col, k);
    if Layout(sizes, cols, spacing).0[k].col == 0 {
      assert c.col == cols;
      assert k >= cols by {
        assert c.row * cols >= 0;
      }
    }
  }

  /** `RowDepth` over a range inside a prefix is the same as over the whole sequence. */
  lemma {:induction false} RowDepthOfPrefix(sizes: seq<Vec3>, lo: nat, hi: nat)
    requires lo <= hi <= |sizes|
    ensures RowDepth(sizes[..hi], lo, hi) == RowDepth(sizes, lo, hi)
    decreases hi - lo
  {
    if lo < hi {
      assert sizes[..hi][..hi - 1] == sizes[..hi - 1];
      RowDepthPrefix(sizes[..hi], lo, hi - 1);
      RowDepthOfPrefix(sizes, lo, hi - 1);
    }
  }

  /** With a positive spacing, y never increases from one item to the next (line 95). */
  lemma YNonIncreasing(sizes: seq<Vec3>, cols: nat, spacing: real, k: nat)
    requires cols > 0 && 0 < k < |sizes| && spacing >= 0.0
    ensures Layout(sizes, cols, spacing).0[k].location.y <= Layout(sizes, cols, spacing).0[k - 1].location.y
  {
    YAdvance(sizes, cols, spacing, k);
  }

  /** `ceil(n / d)` for natural numbers. */
  function CeilDiv(n: nat, d: nat): nat
    requires d > 0
  {
    (n + d - 1) / d
  }

  /** Lines 98 and 110: the reported row count `row_num + 1` is `ceil(n / cols)`. */
  lemma RowCount(sizes: seq<Vec3>, cols: nat, spacing: real)
    requires cols > 0 && |sizes| > 0
    ensures Layout(sizes, cols, spacing).1.row + 1 == CeilDiv(|sizes|, cols)
  {
    LayoutCursor(sizes, cols, spacing);
    var c := Layout(sizes, cols, spacing).1;
    DivModOf(|sizes| + cols - 1, cols, c.row + 1, c.col - 1);
  }

  // ---------------------------------------------------------------------
  // The operator.
  // ---------------------------------------------------------------------

  /** Line 47: the selected objects that are meshes, in selection order. */
  function Meshes(objs: seq<SceneObject>): (ms: seq<SceneObject>)
    ensures |ms| <= |objs|
    ensures forall i :: 0 <= i < |ms| ==> ms[i].isMesh && ms[i] in objs
    ensures forall i :: 0 <= i < |objs| && objs[i].isMesh ==> objs[i] in ms
    ensures |objs| == 1 ==> ms == (if objs[0].isMesh then objs else [])
    ensures AllBoxed(objs) ==> AllBoxed(ms)
    decreases |objs|
  {
    if objs == [] then []
    else
      var rest := Meshes(objs[1..]);
      assert forall i :: 1 <= i < |objs| ==> objs[i] == objs[1..][i - 1];
      if objs[0].isMesh then [objs[0]] + rest else rest
  }

  /**
   * The filter commutes with concatenation. With the one-object case this
   * fixes the result: the meshes in selection order, repeats included.
   */
  lemma {:induction false} MeshesAppend(a: seq<SceneObject>, b: seq<SceneObject>)
    ensures Meshes(a + b) == Meshes(a) + Meshes(b)
    decreases |a|
  {
    if a != [] {
      assert (a + b)[1..] == a[1..] + b;
      MeshesAppend(a[1..], b);
    } else {
      assert a + b == b;
    }
  }

  predicate AllBoxed(objs: seq<SceneObject>) {
    forall i :: 0 <= i < |objs| ==> HasBox(objs[i])
  }

  /** Lines 57-65: one item per mesh, tagged with its position in the selection. */
  function Items(ms: seq<SceneObject>): (its: seq<Item>)
    requires AllBoxed(ms)
    ensures |its| == |ms|
    ensures forall i :: 0 <= i < |ms| ==> its[i] == MakeItem(i, ms[i])
  {
    seq(|ms|, i requires 0 <= i < |ms| => MakeItem(i, ms[i]))
  }

  function Sizes(its: seq<Item>): (ss: seq<Vec3>)
    ensures |ss| == |its| && forall i :: 0 <= i < |its| ==> ss[i] == its[i].size
  {
    seq(|its|, i requires 0 <= i < |its| => its[i].size)
  }

  /** The sort keeps every item, orders them by decreasing area, and keeps equal areas in selection order. */
  ghost predicate SortedFrom(order: seq<Item>, items: seq<Item>) {
    && multiset(order) == multiset(items)
    && NonIncreasing(order)
    && (forall a: real :: OfArea(order, a) == OfArea(items, a))
  }

  lemma SortByAreaSorts(items: seq<Item>)
    ensures SortedFrom(SortByArea(items), items)
  {
    forall a: real ensures OfArea(SortByArea(items), a) == OfArea(items, a) {
      SortStable(items, a);
    }
  }

  datatype ArrangeResult =
    | Cancelled
      /** The items in placement order, where each went, the column count and the reported row count. */
    | Arranged(order: seq<Item>, placements: seq<Placement>, cols: nat, rows: nat)

  /**
   * `execute`: cancel when no mesh is selected; otherwise sort the meshes by
   * footprint, fix the column count and place them row by row.
   */
  method Arrange(objs: seq<SceneObject>, columns: nat, spacing: real) returns (r: ArrangeResult)
    requires AllBoxed(objs)
    ensures r.Cancelled? <==> forall i :: 0 <= i < |objs| ==> !objs[i].isMesh
    ensures r.Arranged? ==> SortedFrom(r.order, Items(Meshes(objs)))
    ensures r.Arranged? ==> columns > 0 ==> r.cols == columns
    ensures r.Arranged? ==> columns == 0 ==> IsCeilSqrt(r.cols, |Meshes(objs)|)
    ensures r.Arranged? ==> r.placements == Layout(Sizes(r.order), r.cols, spacing).0
    ensures r.Arranged? ==> |r.placements| == |Meshes(objs)|
    ensures r.Arranged? ==> r.cols > 0 && r.rows == CeilDiv(|Meshes(objs)|, r.cols)
  {
    var ms := Meshes(objs);
    if |ms| == 0 {
      return Cancelled;
    }
    assert ms[0] in objs && ms[0].isMesh;
    var items := Items(ms);
    var order := SortByArea(items);
    SortByAreaSorts(items);
    var cols := Columns(columns, |ms|);
    var sizes := Sizes(order);
    var lay := Layout(sizes, cols, spacing);
    RowCount(sizes, cols, spacing);
    r := Arranged(order, lay.0, cols, lay.1.row + 1);
  }
}

=== FILE: paths.dfy ===
/**
 * POSIX path manipulation as Python's `posixpath` performs it: `os.path.join`,
 * `os.path.basename` and `os.path.dirname`. These are pure string functions;
 * the operations that consult the disk (`abspath`, `relpath`, `isfile`) are
 * inputs of the export model instead.
 */
module Paths {
  import opened Strings

  /** The separator `join` inserts after `a`: none after an empty path or one ending in '/'. */
  function Sep(a: string): string {
    if a == [] || a[|a| - 1] == '/' then [] else "/"
  }

  predicate IsAbsolute(p: string) {
    |p| > 0 && p[0] == '/'
  }

  /** `os.path.join(a, b)`: an absolute `b` replaces `a`; otherwise one '/' separates them. */
  function Join(a: string, b: string): (r: string)
    ensures IsAbsolute(b) ==> r == b
    ensures !IsAbsolute(b) ==> EndsWith(r, b) && StartsWith(r, a)
  {
    if IsAbsolute(b) then b else a + Sep(a) + b
  }

  /** Index just after the last '/' of `p`, 0 when there is none (`p.rfind('/') + 1`). */
  function SplitPoint(p: string): (k: nat)
    ensures k <= |p|
    ensures forall i :: k <= i < |p| ==> p[i] != '/'
    ensures k == 0 || p[k - 1] == '/'
    decreases |p|
  {
    if p == [] then 0
    else if p[|p| - 1] == '/' then |p|
    else SplitPoint(p[..|p| - 1])
  }

  /** `os.path.basename(p)`: everything after the last '/'. */
  function Basename(p: string): (r: string)
    ensures '/' !in r
    ensures EndsWith(p, r)
  {
    p[SplitPoint(p)..]
  }

  predicate AllSlashes(s: string) {
    forall i :: 0 <= i < |s| ==> s[i] == '/'
  }

  /** `s.rstrip('/')`. */
  function StripTrailingSlashes(s: string): (r: string)
    ensures |r| <= |s| && r == s[..|r|]
    ensures r == [] || r[|r| - 1] != '/'
    decreases |s|
  {
    if s != [] && s[|s| - 1] == '/' then StripTrailingSlashes(s[..|s| - 1]) else s
  }

  /** `os.path.dirname(p)`: everything before the last '/', trailing slashes dropped unless only slashes remain. */
  function Dirname(p: string): (r: string)
    ensures StartsWith(p, r)
  {
    var head := p[..SplitPoint(p)];
    if head != [] && !AllSlashes(head) then StripTrailingSlashes(head) else head
  }

  /** The separator after a non-empty path depends only on its last character. */
  lemma SepOfAppend(x: string, y: string)
    requires y != []
    ensures Sep(x + y) == Sep(y)
  {
    assert (x + y)[|x + y| - 1] == y[|y| - 1];
  }

  /** `join` is associative, so nested joins name the same path however they are grouped. */
  lemma JoinAssociative(a: string, b: string, c: string)
    ensures Join(Join(a, b), c) == Join(a, Join(b, c))
  {
    if IsAbsolute(c) {
    } else if IsAbsolute(b) {
      var bc := b + Sep(b) + c;
      assert bc[0] == b[0];
      assert Join(b, c) == bc;
    } else if b == [] {
      var a' := a + Sep(a);
      assert Join(a, b) == a';
      assert Join(b, c) == c;
      assert Sep(a') == [];
    } else {
      var ab := a + Sep(a) + b;
      var bc := b + Sep(b) + c;
      assert Join(a, b) == ab;
      assert Join(b, c) == bc;
      SepOfAppend(a + Sep(a), b);
      assert bc[0] == b[0];
      assert ab + Sep(b) + c == a + Sep(a) + bc;
    }
  }
}

=== FILE: shading.dfy ===
/**
 * Blender shader node trees as plain values. A graph keeps its nodes in
 * iteration order (`node_tree.nodes`) and its links as a map from each
 * linked input socket to the output socket feeding it: an input socket has
 * at most one incoming link, and `socket.links[0].from_socket` is the value
 * stored under that input.
 */
module Shading {
  import opened Base

  type NodeId = nat

  /** An image datablock: its identity (Python's `id(img)`) and its `filepath`. */
  datatype Image = Image(key: nat, filepath: string)

  datatype SocketType = Shader | NonShader

  datatype OutputSocket = OutputSocket(name: string, stype: SocketType)

  /** A node group's tree: its name and the sockets a group node using it exposes. */
  datatype NodeTree = NodeTree(name: string, inputs: seq<string>, outputs: seq<OutputSocket>)

  /** `node.type`, with the payload the add-on reads for image and group nodes. */
  datatype NodeKind =
    | Principled                          // BSDF_PRINCIPLED
    | MaterialOutput                      // OUTPUT_MATERIAL
    | NormalMap                           // NORMAL_MAP
    | TexImage(image: Option<Image>)      // TEX_IMAGE and its `node.image`
    | Group(tree: NodeTree)               // GROUP and its `node.node_tree`
    | OtherNode(typeName: string)

  datatype Location = Location(x: real, y: real)

  datatype Node = Node(kind: NodeKind, inputs: seq<string>, outputs: seq<OutputSocket>,
                       location: Location, width: real)

  /** A socket named `name` on node `node`; whether it is an input or an output depends on the side of a link. */
  datatype Socket = Socket(node: NodeId, name: string)

  datatype Graph = Graph(order: seq<NodeId>, nodes: map<NodeId, Node>, links: map<Socket, Socket>)

  datatype Material = Material(name: string, useNodes: bool, tree: Graph)

  function OutputNames(outs: seq<OutputSocket>): (names: seq<string>)
    ensures |names| == |outs|
    ensures forall i :: 0 <= i < |outs| ==> names[i] == outs[i].name
    decreases |outs|
  {
    if outs == [] then [] else [outs[0].name] + OutputNames(outs[1..])
  }

  predicate HasInput(g: Graph, s: Socket) {
    s.node in g.nodes && s.name in g.nodes[s.node].inputs
  }

  predicate HasOutput(g: Graph, s: Socket) {
    s.node in g.nodes && s.name in OutputNames(g.nodes[s.node].outputs)
  }

  predicate Distinct<T(==)>(xs: seq<T>) {
    forall i, j :: 0 <= i < j < |xs| ==> xs[i] != xs[j]
  }

  /**
   * Well-formed graph: the iteration order lists every node exactly once and
   * every link runs from an existing output socket to an existing input socket.
   */
  predicate Valid(g: Graph) {
    && Distinct(g.order)
    && (forall i :: 0 <= i < |g.order| ==> g.order[i] in g.nodes)
    && (forall id :: id in g.nodes ==> id in g.order)
    && (forall s :: s in g.links ==> HasInput(g, s) && HasOutput(g, g.links[s]))
  }

  /** `node.id in g` and its kind satisfies `p`. */
  predicate Matches(g: Graph, id: NodeId, p: NodeKind -> bool) {
    id in g.nodes && p(g.nodes[id].kind)
  }

  /** Position in iteration order of the first node whose kind satisfies `p`. */
  function FindFirst(g: Graph, p: NodeKind -> bool, from: nat := 0): (r: Option<nat>)
    requires from <= |g.order|
    ensures r.Some? ==> from <= r.value < |g.order| && Matches(g, g.order[r.value], p)
    ensures r.Some? ==> forall j :: from <= j < r.value ==> !Matches(g, g.order[j], p)
    ensures r.None? ==> forall j :: from <= j < |g.order| ==> !Matches(g, g.order[j], p)
    decreases |g.order| - from
  {
    if from == |g.order| then None
    else if Matches(g, g.order[from], p) then Some(from)
    else FindFirst(g, p, from + 1)
  }

  /** Position in iteration order of the last node whose kind satisfies `p` (a loop that keeps overwriting). */
  function FindLast(g: Graph, p: NodeKind -> bool, upto: nat := |g.order|): (r: Option<nat>)
    requires upto <= |g.order|
    ensures r.Some? ==> r.value < upto && Matches(g, g.order[r.value], p)
    ensures r.Some? ==> forall j :: r.value < j < upto ==> !Matches(g, g.order[j], p)
    ensures r.None? ==> forall j :: 0 <= j < upto ==> !Matches(g, g.order[j], p)
    decreases upto
  {
    if upto == 0 then None
    else if Matches(g, g.order[upto - 1], p) then Some(upto - 1)
    else FindLast(g, p, upto - 1)
  }

  /** An identifier larger than every node identifier in `ids`. */
  function FreshId(ids: seq<NodeId>): (f: NodeId)
    ensures forall i :: 0 <= i < |ids| ==> ids[i] < f
    decreases |ids|
  {
    if ids == [] then 0
    else var rest := FreshId(ids[1..]); if ids[0] < rest then rest else ids[0] + 1
  }
}

=== FILE: strings.dfy ===
/** The handful of Python string operations the add-on relies on, over `seq<char>`. */
module Strings {

  /** Python's `sub in s`: `sub` occurs somewhere in `s` as a contiguous run. */
  predicate Contains(s: string, sub: string)
    decreases |s|
  {
    (|sub| <= |s| && s[..|sub|] == sub) || (|s| > 0 && Contains(s[1..], sub))
  }

  /** Python's `s.endswith(suffix)`. */
  predicate EndsWith(s: string, suffix: string) {
    |suffix| <= |s| && s[|s| - |suffix|..] == suffix
  }

  /** Python's `s.startswith(prefix)`. */
  predicate StartsWith(s: string, prefix: string) {
    |prefix| <= |s| && s[..|prefix|] == prefix
  }

  function LowerChar(c: char): char {
    if 'A' <= c <= 'Z' then (c as int - 'A' as int + 'a' as int) as char else c
  }

  /** Python's `s.lower()` restricted to ASCII letters. */
  function Lower(s: string): (r: string)
    ensures |r| == |s|
    ensures forall i :: 0 <= i < |s| ==> r[i] == LowerChar(s[i])
    decreases |s|
  {
    if s == [] then [] else [LowerChar(s[0])] + Lower(s[1..])
  }

  /** Python's `s.replace(a, b)` for single characters `a != b`. */
  function ReplaceChar(s: string, a: char, b: char): (r: string)
    requires a != b
    ensures |r| == |s|
    ensures a !in r
    ensures forall i :: 0 <= i < |s| && s[i] != a ==> r[i] == s[i]
    ensures forall i :: 0 <= i < |s| && s[i] == a ==> r[i] == b
    decreases |s|
  {
    if s == [] then [] else [if s[0] == a then b else s[0]] + ReplaceChar(s[1..], a, b)
  }

  /** Appending the same text to both sides keeps a suffix a suffix. */
  lemma EndsWithAppend(u: string, v: string, w: string)
    requires EndsWith(u, v)
    ensures EndsWith(u + w, v + w)
  {
    assert (u + w)[|u + w| - |v + w|..] == u[|u| - |v|..] + w;
  }

  /** A prefix of a prefix is a prefix, however much is appended. */
  lemma StartsWithExtend(u: string, v: string, w: string)
    requires StartsWith(u, v) && StartsWith(v, w)
    ensures StartsWith(u, w)
  {
    assert u[..|w|] == u[..|v|][..|w|];
  }
}
